=== FILE: README.md ===
# NeoFPS core behaviours in Dafny

This project models a handful of self-contained behaviours of the NeoFPS
first-person character kit and proves properties of them:

- **Falling state** (`falling_state.dfy`, `falling_state_properties.dfy`).
  This is the airborne motion-graph state. Each tick it splits the
  controller velocity into an up part and a horizontal part. It picks a
  horizontal target velocity. Without input, the momentum-conservation
  policy (`MaintainSpeed`, `ClampSpeed`, `ClampToInput`) decides the target.
  With input, the target follows the input direction, scaled by the strafe
  and reverse multipliers. The state then applies linear drag and moves the
  horizontal velocity toward the target, either instantly or through one
  `SmoothDamp` call. Finally it puts the up part back unchanged. The model
  also covers editor validation, entering and leaving the state, the motion
  handed to the controller, which data references are bound, and the
  save/load of the two persistent vectors.
- **Pool manager** (`pool_manager.dfy`). This covers settings validation,
  the single static scene pool handler and the guard against a second one,
  and the order pools are created in when a handler is accepted. It also
  covers the fallback pool size (100) and increment (20), and how returned
  objects are routed to the handler or destroyed.
- **Driven moving platform** (`driven_moving_platform.dfy`). This is the
  two-slot (previous/current) pose history read every fixed update, plus
  the origin-shift offset.
- **Solo character trigger zone** (`trigger_zone.dfy`). This is the list of
  characters inside the zone and the enter, exit and stay events.
- **Ordered spawn point group** (`ordered_spawn_point_group.dfy`). This covers
  null filtering on validation and the registration traversal.
- **Temporary pooled object** (`temporary_pooled_object.dfy`). This is the
  lifetime timer that asks to return the object to its pool.

Shared pieces:
- `options.dfy` holds the optional value that stands for a nullable
  reference, and the null-skipping traversal (`Present`) used by both the
  pool manager and the spawn group.
- `unity_math.dfy` holds the engine's `Mathf` helpers over the reals, the
  vector types, and the three engine vector calls whose code is not part of
  this model.

Modelling choices:
- All floating-point values are reals.
- The frame time is an explicit parameter.
- The engine calls `Vector3.ClampMagnitude`, `Vector3.SmoothDamp` and
  `Vector3.ProjectOnPlane` are passed in as function values. The lemmas
  that need their behaviour state it as a precondition:
  - `ClampMagnitude` yields the squared length `min(|v|², max²)`.
  - `ProjectOnPlane` removes the component along a unit normal.
  - `SmoothDamp` is left unconstrained.
- The source's `targetVelocity != hVelocity` uses the engine's
  approximate `Vector3` equality. It is modelled as "squared distance below
  `kEpsilon²` = (0.00001)²" (`VectorPrimitives.ApproximatelyEqual`).
- Engine side effects are returned as event traces next to the new state:
  handler instantiation, pool creation, object destruction, error logging,
  spawn point registration and character events.
- Nullable references are `Option` values.
- The falling-state data references (`FloatDataReference`) are plain reals.
  Their `ClampValue` is modelled as `Mathf.Clamp`.

## Model

| member | source | states |
|---|---|---|
| FallingState.OnValidate | Assets/NeoFPS/Core/MotionGraphs/States/FallingState.cs:75-88 | acceleration is clamped to [0,1000]; top speed, strafe and reverse multipliers are clamped to [0,1]: a value below its range becomes the lower bound, one above it the upper bound, and one inside it is kept; deceleration, drag and damping are untouched; a set legacy clamp-speed flag becomes the `ClampSpeed` policy and is cleared |
| FallingStateProperties.OnValidateIdempotent | Assets/NeoFPS/Core/MotionGraphs/States/FallingState.cs:75-88 | validating a second time changes nothing |
| FallingStateProperties.OnValidateClampsDefaultTopSpeed | Assets/NeoFPS/Core/MotionGraphs/States/FallingState.cs:75-88 | the declared default top speed 5 becomes 1 after validation as written |
| FallingState.OnValidateIntended | Assets/NeoFPS/Core/MotionGraphs/States/FallingState.cs:75-88 | corrected validation: the top speed is only kept non-negative, values already non-negative are kept, and every other field is validated as the source does |
| FallingStateProperties.OnValidateIntendedKeepsDefaults | Assets/NeoFPS/Core/MotionGraphs/States/FallingState.cs:16-41 | the declared defaults pass the corrected validation unchanged, and the corrected validation is idempotent |
| FallingState.CheckReferences | Assets/NeoFPS/Core/MotionGraphs/States/FallingState.cs:197-205 | exactly five data references are bound: every tunable except horizontal drag |
| FallingState.OnEnter | Assets/NeoFPS/Core/MotionGraphs/States/FallingState.cs:90-95 | entering zeroes the smoothing accumulator and seeds the output with the controller velocity |
| FallingStateProperties.OnEnterForgetsPreviousMotor | Assets/NeoFPS/Core/MotionGraphs/States/FallingState.cs:90-95 | nothing of the motor before entering survives; a unit tick then moves by the controller velocity |
| FallingState.OnExit | Assets/NeoFPS/Core/MotionGraphs/States/FallingState.cs:97-101 | leaving zeroes the output velocity and keeps the accumulator |
| FallingStateProperties.OnExitStopsMotion | Assets/NeoFPS/Core/MotionGraphs/States/FallingState.cs:65-101 | after leaving, the motion handed over is zero for any tick length, and leaving twice equals leaving once |
| FallingState.MoveVector | Assets/NeoFPS/Core/MotionGraphs/States/FallingState.cs:65-68 | the motion for a tick is the output velocity scaled by the tick: its length scales by the tick, and so does its component along every axis |
| FallingState.SplitVelocity | Assets/NeoFPS/Core/MotionGraphs/States/FallingState.cs:108-110 | up part plus horizontal part is the velocity; for a unit up axis the horizontal part has no up component and the up part keeps all of it |
| FallingState.ReverseFactor | Assets/NeoFPS/Core/MotionGraphs/States/FallingState.cs:141-142 | the reverse slow-down lies between the reverse multiplier and 1; it is 1 for non-negative forward input and the reverse multiplier at full backward input |
| FallingState.StrafeFactor | Assets/NeoFPS/Core/MotionGraphs/States/FallingState.cs:143 | the strafe slow-down lies between the strafe multiplier and 1; it is 1 without lateral input and the strafe multiplier at full lateral input either way |
| FallingState.DirectionMultiplier | Assets/NeoFPS/Core/MotionGraphs/States/FallingState.cs:141-143 | straight-ahead (or no) input has multiplier 1 |
| FallingState.DirectionMultiplierBounds | Assets/NeoFPS/Core/MotionGraphs/States/FallingState.cs:141-143 | with both multipliers in [0,1] the direction multiplier lies between their product and 1 |
| FallingStateProperties.PureReverseMultiplier | Assets/NeoFPS/Core/MotionGraphs/States/FallingState.cs:141-143 | pure backward input is slowed by exactly the reverse multiplier |
| FallingStateProperties.PureStrafeMultiplier | Assets/NeoFPS/Core/MotionGraphs/States/FallingState.cs:141-143 | pure sideways input is slowed by exactly the strafe multiplier |
| FallingStateProperties.DirectionMultiplierExamples | Assets/NeoFPS/Core/MotionGraphs/States/FallingState.cs:141-143 | with multipliers 0.75 and 0.5, a pure strafe gets 0.75 and pure reverse input gets 0.5 |
| FallingStateProperties.ForwardInputHasNoPenalty | Assets/NeoFPS/Core/MotionGraphs/States/FallingState.cs:141-143 | forward input without strafing keeps the full top speed, whatever the multipliers |
| FallingState.SteerSpeed | Assets/NeoFPS/Core/MotionGraphs/States/FallingState.cs:150-161 | the target speed is max(input, aligned) under `MaintainSpeed` and max(input, min(aligned, top)) under the other policies, so it is never below the input speed |
| FallingState.SteerTarget | Assets/NeoFPS/Core/MotionGraphs/States/FallingState.cs:145-161 | the target points along the input direction at max(input speed, aligned speed) under `MaintainSpeed` and max(input speed, min(aligned speed, top speed)) otherwise, where the input speed is top speed × input scale × direction multiplier; it is decelerating exactly when the policy is not `MaintainSpeed` and the aligned speed exceeds the top speed |
| FallingStateProperties.SteeringTargetFollowsInput | Assets/NeoFPS/Core/MotionGraphs/States/FallingState.cs:138-162 | with input, a tick uses the direction multiplier of its input and the steering target, decelerating exactly when the aligned speed is cut back |
| FallingStateProperties.SteerSpeedAboveInput | Assets/NeoFPS/Core/MotionGraphs/States/FallingState.cs:150-161 | when the aligned speed exceeds the input speed, `MaintainSpeed` keeps the aligned speed, the other policies keep it up to the top speed and otherwise cut it to max(input, top) |
| FallingStateProperties.StrafeExample | Assets/NeoFPS/Core/MotionGraphs/States/FallingState.cs:141-161 | a pure strafe from rest with top speed 5 and multiplier 0.75 targets 3.75 along the right axis |
| FallingStateProperties.ReverseExample | Assets/NeoFPS/Core/MotionGraphs/States/FallingState.cs:141-161 | pure reverse input from rest with top speed 5 and multiplier 0.5 targets 2.5 backwards |
| FallingState.CoastTarget | Assets/NeoFPS/Core/MotionGraphs/States/FallingState.cs:117-137 | without input: `MaintainSpeed` keeps the horizontal velocity, `ClampSpeed` clamps its magnitude, `ClampToInput` targets zero and decelerates |
| FallingStateProperties.CoastClampSpeed | Assets/NeoFPS/Core/MotionGraphs/States/FallingState.cs:121-129 | under `ClampSpeed` the target's squared length is min(speed², top²), and it is decelerating exactly when the speed exceeded the top speed |
| FallingStateProperties.CoastingTargetFollowsPolicy | Assets/NeoFPS/Core/MotionGraphs/States/FallingState.cs:113-137 | without input a tick uses multiplier 1 and the target its momentum policy picks |
| FallingState.DragFactor | Assets/NeoFPS/Core/MotionGraphs/States/FallingState.cs:165-167 | the drag factor lies in [0,1]; it is 1 for negligible drag or a zero tick, and below 1 otherwise |
| FallingState.ApplyDrag | Assets/NeoFPS/Core/MotionGraphs/States/FallingState.cs:164-169 | the dragged target is the target scaled by the drag factor, so drag never lengthens it and never turns it around; negligible drag leaves it unchanged |
| FallingStateProperties.DragShortensTarget | Assets/NeoFPS/Core/MotionGraphs/States/FallingState.cs:164-169 | real drag over a positive tick strictly shortens a non-zero target: scaled by 1 − drag × tick while that is positive, zero once it is not |
| FallingStateProperties.DragPrecedesVelocityChange | Assets/NeoFPS/Core/MotionGraphs/States/FallingState.cs:164-190 | the velocity change aims at the dragged target with the rate chosen from the undragged target's flag, capped at rate times the direction multiplier |
| FallingState.SmoothTime | Assets/NeoFPS/Core/MotionGraphs/States/FallingState.cs:186 | the smoothing time lies in [0.05, 0.25], at 0.05 for damping ≤ 0 and 0.25 for damping ≥ 1 |
| FallingState.ChangeVelocity | Assets/NeoFPS/Core/MotionGraphs/States/FallingState.cs:171-190 | no smoothing call exactly when the rate is below 0.001 or the target is reached, and then the velocity is the target and the accumulator is kept; otherwise one call with the current velocity, target, accumulator, interpolated smooth time and max speed rate × multiplier, whose results become the velocity and accumulator |
| FallingStateProperties.SnapWhenRateNegligibleOrReached | Assets/NeoFPS/Core/MotionGraphs/States/FallingState.cs:172-189 | a negligible rate or a target reached up to the engine's approximate vector equality snaps the horizontal velocity to the target and keeps the accumulator |
| FallingState.Update | Assets/NeoFPS/Core/MotionGraphs/States/FallingState.cs:103-195 | the accumulator changes only through a `SmoothDamp` call and then becomes that call's new velocity; for a unit up axis and a projection that removes the up component, the output's up component equals the controller's whatever `SmoothDamp` returns |
| FallingStateProperties.UpdateIgnoresPreviousOutput | Assets/NeoFPS/Core/MotionGraphs/States/FallingState.cs:103-195 | a tick reads only the accumulator from the previous motor, never the previous output velocity |
| FallingStateProperties.VerticalMotionPreserved | Assets/NeoFPS/Core/MotionGraphs/States/FallingState.cs:192-194 | the motion handed over moves along up by exactly the controller's vertical velocity times the tick |
| FallingStateProperties.CoastingMaintainsVelocity | Assets/NeoFPS/Core/MotionGraphs/States/FallingState.cs:117-194 | coasting under `MaintainSpeed` without drag keeps the controller velocity exactly |
| FallingStateProperties.ClampToInputStopsInstantly | Assets/NeoFPS/Core/MotionGraphs/States/FallingState.cs:130-194 | coasting under `ClampToInput` with negligible deceleration removes all horizontal motion in one tick |
| FallingState.WriteProperties | Assets/NeoFPS/Core/MotionGraphs/States/FallingState.cs:209-217 | the accumulator goes under "acceleration" and the output under "velocity"; every other key is kept |
| FallingState.ReadProperties | Assets/NeoFPS/Core/MotionGraphs/States/FallingState.cs:219-224 | a present key sets its variable; an absent key keeps the value held |
| FallingStateProperties.SaveLoadRoundTrip | Assets/NeoFPS/Core/MotionGraphs/States/FallingState.cs:209-224 | reading back what was written restores both variables, whatever was held before |
| FallingStateProperties.LoadFromEmptyRecordKeepsMotor | Assets/NeoFPS/Core/MotionGraphs/States/FallingState.cs:219-224 | a record with neither key leaves the held variables untouched |
| FallingStateProperties.ResumeAfterLoad | Assets/NeoFPS/Core/MotionGraphs/States/FallingState.cs:103-224 | a tick after saving and loading equals the tick without the interruption |
| PoolManager.AtLeastOneEach | Assets/NeoFPS/Core/Utilities/Pooling/PoolManager.cs:63-67 | every pool count ends at least 1, counts already ≥ 1 are kept, and prototypes and length are unchanged |
| PoolManager.OnValidate | Assets/NeoFPS/Core/Utilities/Pooling/PoolManager.cs:57-68 | a pool size below 1 becomes 1 and is kept otherwise; an increment below 1 becomes 1, one above the pool size becomes the pool size, and one in range is kept; every shared count below 1 becomes 1 and the others are kept, with the length kept |
| PoolManager.OnValidateIdempotent | Assets/NeoFPS/Core/Utilities/Pooling/PoolManager.cs:57-68 | validated settings are a fixed point, so validating twice equals validating once |
| PoolManager.IsValid | Assets/NeoFPS/Core/Utilities/Pooling/PoolManager.cs:71-74 | the settings are valid exactly when a scene pool handler prefab is assigned |
| PoolManager.ValidSettingsServeRequests | Assets/NeoFPS/Core/Utilities/Pooling/PoolManager.cs:71-101 | with a loaded manager and no handler yet, a request is served exactly when the manager is valid (has a handler prefab); otherwise an error is logged |
| PoolManager.CheckScenePoolHandler | Assets/NeoFPS/Core/Utilities/Pooling/PoolManager.cs:76-101 | succeeds exactly when there is an instance and either a handler or a prefab; without an instance it fails silently and changes nothing; with a handler nothing happens; with neither handler nor prefab it fails, logs one error and changes nothing; otherwise it instantiates a handler, which becomes current and creates its pools |
| PoolManager.CheckScenePoolHandlerSettles | Assets/NeoFPS/Core/Utilities/Pooling/PoolManager.cs:76-101 | after a successful check a second check succeeds with no effect |
| PoolManager.SetCurrentScenePoolInfo | Assets/NeoFPS/Core/Utilities/Pooling/PoolManager.cs:103-128 | nothing without an instance; a different non-null handler while one is set is refused with an error; otherwise the argument (null included) becomes current and a non-null one creates its pools |
| PoolManager.PoolCreationEvents | Assets/NeoFPS/Core/Utilities/Pooling/PoolManager.cs:118-127 | pools are created for the shared pools first, then for each non-null collection in array order |
| PoolManager.AppendCollection | Assets/NeoFPS/Core/Utilities/Pooling/PoolManager.cs:122-126 | an extra null collection adds no pool creation; an extra non-null one adds exactly its own, last |
| PoolManager.SingleHandlerGuard | Assets/NeoFPS/Core/Utilities/Pooling/PoolManager.cs:108-113 | once a handler is current, any sequence of other non-null handlers leaves it current and logs one error each, for as long as that handler is not destroyed |
| PoolManager.ClearThenReplace | Assets/NeoFPS/Core/Utilities/Pooling/PoolManager.cs:103-128 | clearing with null lets the next handler in, and it creates its pools |
| PoolManager.HandlerDestroyed | Assets/NeoFPS/Core/Utilities/Pooling/PoolManager.cs:30-32 | destroying the current handler leaves the manager's instance and no current handler, since a destroyed engine object reads as null |
| PoolManager.DestroyedHandlerIsReplaced | Assets/NeoFPS/Core/Utilities/Pooling/PoolManager.cs:76-149 | after the handler is destroyed, a different handler is accepted without an error and creates its pools, returned objects are destroyed, and a check with a prefab instantiates a new current handler |
| PoolManager.DefaultPoolSize | Assets/NeoFPS/Core/Utilities/Pooling/PoolManager.cs:34-43 | the configured size exactly when the handler check succeeds and 100 otherwise, with the check's effects: 100 and nothing else without an instance; the configured size and no effect with a current handler; with a prefab but no handler, the configured size after instantiating a handler that becomes current and creates its pools; without a prefab, 100 and an error |
| PoolManager.PoolIncrement | Assets/NeoFPS/Core/Utilities/Pooling/PoolManager.cs:45-54 | the configured increment exactly when the handler check succeeds and 20 otherwise, with the check's effects: 20 and nothing else without an instance; the configured increment and no effect with a current handler; with a prefab but no handler, the configured increment after instantiating a handler that becomes current and creates its pools; without a prefab, 20 and an error |
| PoolManager.ConfiguredSizesAfterValidation | Assets/NeoFPS/Core/Utilities/Pooling/PoolManager.cs:34-61 | with a current handler and validated settings, 1 ≤ increment ≤ pool size |
| PoolManager.ReportedSizesPositive | Assets/NeoFPS/Core/Utilities/Pooling/PoolManager.cs:34-101 | with validated settings (or none) the reported pool size and increment are positive in every state |
| PoolManager.CreatePoolDefault | Assets/NeoFPS/Core/Utilities/Pooling/PoolManager.cs:130-134 | after a successful check, one pool of the configured runtime size is created on the current handler; otherwise only the check's effects |
| PoolManager.CreatePoolWithCount | Assets/NeoFPS/Core/Utilities/Pooling/PoolManager.cs:136-140 | after a successful check, one pool of the given size is created on the current handler; otherwise only the check's effects |
| PoolManager.RequestPooledObject | Assets/NeoFPS/Core/Utilities/Pooling/PoolManager.cs:160-182 | the handler is asked for an object exactly when the check succeeds; otherwise nothing is returned |
| PoolManager.ReturnObjectToPool | Assets/NeoFPS/Core/Utilities/Pooling/PoolManager.cs:142-149 | the object goes to the current handler if there is one and is destroyed otherwise; the manager is unchanged |
| PoolManager.ReturnObjectDelayed | Assets/NeoFPS/Core/Utilities/Pooling/PoolManager.cs:151-158 | the delayed return goes to the current handler if there is one; otherwise the object is destroyed after the delay; the manager is unchanged |
| PoolManager.ReturnNeverInstantiates | Assets/NeoFPS/Core/Utilities/Pooling/PoolManager.cs:142-158 | returning an object never instantiates a handler |
| PoolManager.DefaultSettingsBehaviour | Assets/NeoFPS/Core/Utilities/Pooling/PoolManager.cs:17-43 | the declared defaults (no prefab, size 100, increment 20) are already validated (a fixed point of `OnValidate`), match the fallback sizes, are not valid in the sense of `IsValid`, and with no handler make the size query log an error and report 100 |
| DrivenMovingPlatform.Awake | Assets/NeoFPS/Core/MovingPlatforms/DrivenMovingPlatform.cs:17-45 | a woken platform is not initialised, remembers whether it has a rigidbody, and holds the default values: zero positions and the all-zero quaternion |
| DrivenMovingPlatform.FixedUpdate | Assets/NeoFPS/Core/MovingPlatforms/DrivenMovingPlatform.cs:53-82 | the first update fills both slots with the transform pose; later ones move the current pose to previous and read the rigidbody pose if there is a rigidbody, the transform pose otherwise |
| DrivenMovingPlatform.FirstUpdateHasNoDisplacement | Assets/NeoFPS/Core/MovingPlatforms/DrivenMovingPlatform.cs:55-64 | the first update never reports motion, even with a rigidbody |
| DrivenMovingPlatform.StationaryAfterTwoUpdates | Assets/NeoFPS/Core/MovingPlatforms/DrivenMovingPlatform.cs:53-82 | two updates at the same pose leave both slots at that pose with zero displacement |
| DrivenMovingPlatform.DisplacementTracksReadings | Assets/NeoFPS/Core/MovingPlatforms/DrivenMovingPlatform.cs:53-82 | after two updates the displacement is the second reading (the rigidbody pose when there is a rigidbody) minus the first recorded position: the first transform pose from a fresh platform or without a rigidbody, the first rigidbody pose otherwise |
| DrivenMovingPlatform.ApplyOffset | Assets/NeoFPS/Core/MovingPlatforms/DrivenMovingPlatform.cs:84-88 | both positions move by the offset, so the displacement is kept; rotations and flags are unchanged |
| DrivenMovingPlatform.ApplyOffsetComposes | Assets/NeoFPS/Core/MovingPlatforms/DrivenMovingPlatform.cs:84-88 | two shifts equal one shift by their sum |
| DrivenMovingPlatform.ApplyOffsetInverse | Assets/NeoFPS/Core/MovingPlatforms/DrivenMovingPlatform.cs:84-88 | shifting back by the opposite offset restores the platform |
| DrivenMovingPlatform.OriginShiftCommutesWithUpdate | Assets/NeoFPS/Core/MovingPlatforms/DrivenMovingPlatform.cs:53-88 | shifting, then updating from a shifted world, equals updating and then shifting |
| TriggerZone.CharacterOf | Assets/NeoFPS/Core/SinglePlayer/Utilities/SoloCharacterTriggerZonePersistant.cs:28-31 | a collider counts exactly when it is tagged "Player" and has a character in its parents |
| TriggerZone.OnTriggerEnter | Assets/NeoFPS/Core/SinglePlayer/Utilities/SoloCharacterTriggerZonePersistant.cs:26-37 | a counted collider appends its character (duplicates allowed) and fires enter if the listener exists; others change nothing |
| TriggerZone.RemoveFirstSplits | Assets/NeoFPS/Core/SinglePlayer/Utilities/SoloCharacterTriggerZonePersistant.cs:46 | list removal cuts out the first occurrence and takes one copy out of the multiset |
| TriggerZone.OnTriggerExit | Assets/NeoFPS/Core/SinglePlayer/Utilities/SoloCharacterTriggerZonePersistant.cs:39-50 | a counted collider removes the first occurrence of its character if listed and fires exit even when it was not; others change nothing |
| TriggerZone.OnTriggerStay | Assets/NeoFPS/Core/SinglePlayer/Utilities/SoloCharacterTriggerZonePersistant.cs:52-60 | the list never changes; a counted collider fires stay if the listener exists |
| TriggerZone.OnDisable | Assets/NeoFPS/Core/SinglePlayer/Utilities/SoloCharacterTriggerZonePersistant.cs:62-67 | one exit per listed character in list order, then an empty list |
| TriggerZone.IgnoredCollidersChangeNothing | Assets/NeoFPS/Core/SinglePlayer/Utilities/SoloCharacterTriggerZonePersistant.cs:26-60 | untagged colliders and colliders without a character leave every handler without effect |
| TriggerZone.EnterThenExitRestores | Assets/NeoFPS/Core/SinglePlayer/Utilities/SoloCharacterTriggerZonePersistant.cs:26-50 | entering then leaving through the same collider restores the list as a multiset |
| TriggerZone.ExitOfAbsentCharacter | Assets/NeoFPS/Core/SinglePlayer/Utilities/SoloCharacterTriggerZonePersistant.cs:39-50 | leaving without having entered keeps the list and still fires exit |
| TriggerZone.DisableAfterEnter | Assets/NeoFPS/Core/SinglePlayer/Utilities/SoloCharacterTriggerZonePersistant.cs:26-67 | a character that entered last gets its exit last when the zone is disabled |
| OrderedSpawnPointGroup.OnValidate | Assets/NeoFPS/Core/Gameplay/OrderedSpawnPointGroup.cs:22-41 | no nulls remain; the non-null entries keep their relative order; the length drops by the null count; an array without nulls is unchanged |
| OrderedSpawnPointGroup.OnValidateIdempotent | Assets/NeoFPS/Core/Gameplay/OrderedSpawnPointGroup.cs:22-41 | validating a validated group changes nothing |
| OrderedSpawnPointGroup.OnValidateKeepsTraversal | Assets/NeoFPS/Core/Gameplay/OrderedSpawnPointGroup.cs:22-68 | validation does not change which spawn points are registered, nor their order |
| OrderedSpawnPointGroup.Traverse | Assets/NeoFPS/Core/Gameplay/OrderedSpawnPointGroup.cs:61-77 | the loop visits exactly the non-null entries, in array order |
| OrderedSpawnPointGroup.RegisterAll | Assets/NeoFPS/Core/Gameplay/OrderedSpawnPointGroup.cs:61-68 | registers exactly the non-null spawn points, in array order |
| OrderedSpawnPointGroup.UnregisterAll | Assets/NeoFPS/Core/Gameplay/OrderedSpawnPointGroup.cs:70-77 | unregisters exactly the non-null spawn points, in array order |
| OrderedSpawnPointGroup.RegisteredExactlyThePresent | Assets/NeoFPS/Core/Gameplay/OrderedSpawnPointGroup.cs:61-68 | a spawn point is registered exactly when it is a non-null entry |
| OrderedSpawnPointGroup.AwakeCalls | Assets/NeoFPS/Core/Gameplay/OrderedSpawnPointGroup.cs:44-48 | awake registers every non-null spawn point in order when register-on-awake is set, and nothing otherwise |
| OrderedSpawnPointGroup.OnEnableCalls | Assets/NeoFPS/Core/Gameplay/OrderedSpawnPointGroup.cs:50-54 | enable applies the same guard and traversal as awake |
| OrderedSpawnPointGroup.StartUpCalls | Assets/NeoFPS/Core/Gameplay/OrderedSpawnPointGroup.cs:44-54 | starting up enabled makes no call without register-on-awake; with it, the calls are the registration traversal of the non-null spawn points, in order, twice over |
| OrderedSpawnPointGroup.DefaultGroupValidated | Assets/NeoFPS/Core/Gameplay/OrderedSpawnPointGroup.cs:10-59 | the declared defaults (register on awake, no spawn points) survive validation and make no call at start-up or on disable |
| OrderedSpawnPointGroup.StartUpRegistersTwice | Assets/NeoFPS/Core/Gameplay/OrderedSpawnPointGroup.cs:44-68 | with register-on-awake, start-up is the registration traversal twice over and registers exactly the non-null entries |
| OrderedSpawnPointGroup.NoRegisterOnAwakeOnlyUnregisters | Assets/NeoFPS/Core/Gameplay/OrderedSpawnPointGroup.cs:44-59 | without register-on-awake nothing registers at start-up, yet disabling still unregisters every non-null spawn point |
| OrderedSpawnPointGroup.OnDisableCalls | Assets/NeoFPS/Core/Gameplay/OrderedSpawnPointGroup.cs:56-59 | disable always unregisters |
| OrderedSpawnPointGroup.DisableMirrorsEnable | Assets/NeoFPS/Core/Gameplay/OrderedSpawnPointGroup.cs:44-77 | a disable/enable cycle unregisters and re-registers the same spawn points in the same order; start-up makes as many calls as one disable plus one enable |
| Options.PresentAppend | Assets/NeoFPS/Core/Gameplay/OrderedSpawnPointGroup.cs:34-38 | skipping nulls distributes over concatenation, so the kept entries stay in order |
| Options.PresentMembership | Assets/NeoFPS/Core/Gameplay/OrderedSpawnPointGroup.cs:34-38 | a value is kept exactly when it occurs as a non-null entry |
| TemporaryPooledObject.OnValidate | Assets/NeoFPS/Core/Utilities/Pooling/TemporaryPooledObject.cs:13-17 | lifetime ≥ 0 afterwards; a non-negative lifetime is unchanged and a negative one becomes 0 |
| TemporaryPooledObject.OnEnable | Assets/NeoFPS/Core/Utilities/Pooling/TemporaryPooledObject.cs:19-22 | enabling resets the elapsed time to 0 and keeps the lifetime |
| TemporaryPooledObject.Update | Assets/NeoFPS/Core/Utilities/Pooling/TemporaryPooledObject.cs:24-29 | elapsed grows by exactly the frame time; a return is requested exactly when the new elapsed time exceeds the lifetime |
| TemporaryPooledObject.RunAccumulates | Assets/NeoFPS/Core/Utilities/Pooling/TemporaryPooledObject.cs:24-29 | over several frames the elapsed time grows by their total |
| TemporaryPooledObject.RunRequestsWhenExpired | Assets/NeoFPS/Core/Utilities/Pooling/TemporaryPooledObject.cs:24-29 | frame i of a run requests a return exactly when the time elapsed through frame i exceeds the lifetime |
| TemporaryPooledObject.RequestsPersist | Assets/NeoFPS/Core/Utilities/Pooling/TemporaryPooledObject.cs:24-29 | with non-negative frame times, once a return is requested every later frame requests it too |
| TemporaryPooledObject.ZeroLifetimeExpiresImmediately | Assets/NeoFPS/Core/Utilities/Pooling/TemporaryPooledObject.cs:19-29 | with lifetime 0, any positive frame time requests a return on the first update after enabling |
| TemporaryPooledObject.KeptWithinLifetime | Assets/NeoFPS/Core/Utilities/Pooling/TemporaryPooledObject.cs:19-29 | after enabling, no return is requested while the frames so far add up to at most the lifetime |
| TemporaryPooledObject.DefaultTimerLifetime | Assets/NeoFPS/Core/Utilities/Pooling/TemporaryPooledObject.cs:8-29 | the declared lifetime 5 survives validation, and a freshly enabled object with it requests a return on a frame exactly when the frames so far add up to more than 5 |
| Numerics.Lerp | Assets/NeoFPS/Core/MotionGraphs/States/FallingState.cs:142-143 | `Mathf.Lerp` clamps its parameter: the result lies between the end points, at the first for t ≤ 0 and the second for t ≥ 1 |
| Numerics.Clamp | Assets/NeoFPS/Core/MotionGraphs/States/FallingState.cs:78-81 | `ClampValue` (`Mathf.Clamp`) yields the lower bound below the range, the upper bound above it, and the value itself inside it; the bounds are not required to be ordered |

## Left out

- The motion graph container is not part of this model: transitions,
  parameter binding, the graph driver and the base-class hooks that each
  falling-state method calls first. `CheckReferences` is modelled only as
  the set of data references it binds.
- The internals of `Vector3.SmoothDamp`, `Vector3.ClampMagnitude` and
  `Vector3.ProjectOnPlane` are left out. This is engine code; the model
  states only the contracts above. Because `SmoothDamp` is unconstrained,
  the multi-tick behaviour of `ClampSpeed` (speed decreasing tick over tick
  toward the top speed) and of `ClampToInput` (convergence to rest) is not
  proved.
- IEEE single-precision rounding is not modelled: all arithmetic is over
  the reals.
- `DrivenMovingPlatform`'s subscription to and removal from the
  origin-shift system (`Awake`/`OnDestroy`) is left out. Only the
  rigidbody lookup of `Awake` is kept, as a flag.
- PoolManager.RequestPooledObject drops the position, rotation and scale
  arguments of the `GetPooledObject` overloads and only records that the
  handler was asked. Placing the object is handler code, which is not part
  of this model.
- Prefab instantiation, the save-system scene lookup and the
  `ScenePoolHandler` internals are events. Initialising a new handler is
  modelled as the call to `SetCurrentScenePoolInfo` with that handler, as
  the source's comment says.
- PoolManager.SetCurrentScenePoolInfo: `current` stands for a live
  handler. The engine's null test also fails for a destroyed handler, so
  destroying it is modelled as clearing it (`HandlerDestroyed`); when the
  engine destroys it is not modelled.
- Loading the manager asset (`LoadNeoSceneManager`) is modelled as the
  `instance` field being present or absent.
- FallingState.Update: its contract fixes the accumulator and the up
  component of the output. The horizontal output is the dragged target when
  the rate is negligible or the target is reached, and otherwise the
  velocity `SmoothDamp` returns; either way it is put back on the plane.
  This is stated through `Plan`, `ChangeVelocity` and the lemmas of
  `FallingStateProperties`, not by `Update`'s own contract.
- `SpawnPoint.Register` is not part of this model. The group registers
  from both `Awake` and `OnEnable`, so an object that starts enabled
  registers each spawn point twice, while a single `OnDisable` unregisters
  it once. Whether a repeated registration is harmless depends on
  `SpawnPoint` and is not modelled; the calls are recorded as they are made.
- A temporary pooled object that requests its return is handed back to its
  pool or destroyed, and runs no further frames. The run lemmas
  (`RequestsPersist`) describe frames of an object that stayed active.

## Findings

| source | as written | input that shows it | evidently intended | confidence | as-written member | corrected member |
|---|---|---|---|---|---|---|
| Assets/NeoFPS/Core/MotionGraphs/States/FallingState.cs:79 | editor validation clamps the top speed to [0, 1] | the declared default top speed 5 (line 23) becomes 1 on validation | the top speed is only kept non-negative, like the other speeds, so a default of 5 survives | medium, not executed | FallingStateProperties.OnValidateClampsDefaultTopSpeed | FallingState.OnValidateIntended |

=== FILE: driven_moving_platform.dfy ===
/**
 * A moving platform driven by something else (a script or an animator): each
 * fixed update it reads its own pose and keeps the previous one, so contacting
 * characters can interpolate between the two. An origin shift moves both
 * stored positions by the same offset.
 */
module DrivenMovingPlatform {
  import opened Vectors

  datatype Pose = Pose(position: Vec3, rotation: Quaternion)

  /**
   * The two-slot pose history. `hasRigidbody` records whether a rigidbody was
   * found on the object when it woke up.
   */
  datatype Platform = Platform(
    fixedPosition: Vec3,
    previousPosition: Vec3,
    fixedRotation: Quaternion,
    previousRotation: Quaternion,
    initialised: bool,
    hasRigidbody: bool)

  /**
   * The platform as it wakes up: nothing recorded yet. The properties hold the
   * default values of their types, so the rotations are the all-zero
   * quaternion rather than the identity.
   */
  function Awake(hasRigidbody: bool): (r: Platform)
    ensures !r.initialised && r.hasRigidbody == hasRigidbody
    ensures r.fixedPosition == Zero && r.previousPosition == Zero
    ensures r.fixedRotation == r.previousRotation == Quaternion(0.0, 0.0, 0.0, 0.0)
  {
    Platform(Zero, Zero, Quaternion(0.0, 0.0, 0.0, 0.0), Quaternion(0.0, 0.0, 0.0, 0.0), false, hasRigidbody)
  }

  function FixedPose(p: Platform): Pose {
    Pose(p.fixedPosition, p.fixedRotation)
  }

  function PreviousPose(p: Platform): Pose {
    Pose(p.previousPosition, p.previousRotation)
  }

  /** The pose a later fixed update reads: the rigidbody's when there is one, the transform's otherwise. */
  function Reading(p: Platform, transformPose: Pose, rigidbodyPose: Pose): Pose {
    if p.hasRigidbody then rigidbodyPose else transformPose
  }

  /**
   * One fixed update given the transform's and the rigidbody's current poses.
   * The first update fills both slots with the transform pose; later ones move
   * the current slot into the previous one and read the rigidbody pose when
   * there is a rigidbody, the transform pose otherwise.
   */
  function FixedUpdate(p: Platform, transformPose: Pose, rigidbodyPose: Pose): (r: Platform)
    ensures r.initialised && r.hasRigidbody == p.hasRigidbody
    ensures !p.initialised ==> FixedPose(r) == transformPose && PreviousPose(r) == transformPose
    ensures p.initialised ==> PreviousPose(r) == FixedPose(p)
    ensures p.initialised && p.hasRigidbody ==> FixedPose(r) == rigidbodyPose
    ensures p.initialised && !p.hasRigidbody ==> FixedPose(r) == transformPose
  {
    if !p.initialised then
      p.(fixedPosition := transformPose.position, fixedRotation := transformPose.rotation,
         previousPosition := transformPose.position, previousRotation := transformPose.rotation,
         initialised := true)
    else
      var pose := Reading(p, transformPose, rigidbodyPose);
      p.(previousPosition := p.fixedPosition, previousRotation := p.fixedRotation,
         fixedPosition := pose.position, fixedRotation := pose.rotation)
  }

  /** The displacement over the last fixed step, as contacting characters see it. */
  function Displacement(p: Platform): Vec3 {
    Sub(p.fixedPosition, p.previousPosition)
  }

  /** Moves both recorded positions by an origin-shift offset. */
  function ApplyOffset(p: Platform, offset: Vec3): (r: Platform)
    ensures r.fixedPosition == Add(p.fixedPosition, offset)
    ensures r.previousPosition == Add(p.previousPosition, offset)
    ensures Displacement(r) == Displacement(p)
    ensures r.fixedRotation == p.fixedRotation && r.previousRotation == p.previousRotation
    ensures r.initialised == p.initialised && r.hasRigidbody == p.hasRigidbody
  {
    p.(fixedPosition := Add(p.fixedPosition, offset), previousPosition := Add(p.previousPosition, offset))
  }

  function Negate(v: Vec3): Vec3 {
    Vec3(-v.x, -v.y, -v.z)
  }

  function ShiftPose(pose: Pose, offset: Vec3): Pose {
    pose.(position := Add(pose.position, offset))
  }

  /** Two origin shifts in a row are one shift by their sum. */
  lemma ApplyOffsetComposes(p: Platform, a: Vec3, b: Vec3)
    ensures ApplyOffset(ApplyOffset(p, a), b) == ApplyOffset(p, Add(a, b))
  {
  }

  /** Shifting back by the opposite offset restores the platform. */
  lemma ApplyOffsetInverse(p: Platform, offset: Vec3)
    ensures ApplyOffset(ApplyOffset(p, offset), Negate(offset)) == p
  {
  }

  /**
   * An origin shift commutes with a fixed update that reads the shifted world:
   * shifting and then reading shifted poses gives the shifted result of reading
   * the unshifted poses.
   */
  lemma OriginShiftCommutesWithUpdate(p: Platform, transformPose: Pose, rigidbodyPose: Pose, offset: Vec3)
    ensures FixedUpdate(ApplyOffset(p, offset), ShiftPose(transformPose, offset), ShiftPose(rigidbodyPose, offset))
      == ApplyOffset(FixedUpdate(p, transformPose, rigidbodyPose), offset)
  {
  }

  /** A platform read at the same pose twice has stopped: both slots agree and the displacement is zero. */
  lemma StationaryAfterTwoUpdates(p: Platform, pose: Pose)
    ensures var once := FixedUpdate(p, pose, pose);
      var twice := FixedUpdate(once, pose, pose);
      FixedPose(twice) == PreviousPose(twice) == pose && Displacement(twice) == Zero
  {
  }

  /** The first update never reports motion, even when a rigidbody pose differs from the transform. */
  lemma FirstUpdateHasNoDisplacement(p: Platform, transformPose: Pose, rigidbodyPose: Pose)
    requires !p.initialised
    ensures Displacement(FixedUpdate(p, transformPose, rigidbodyPose)) == Zero
  {
  }

  /**
   * Two updates in a row report as displacement the second reading minus the
   * first recorded position. From a fresh platform, or without a rigidbody, the
   * first recorded position is the first transform pose; with a rigidbody the
   * second reading is the rigidbody pose.
   */
  lemma DisplacementTracksReadings(p: Platform, t1: Pose, r1: Pose, t2: Pose, r2: Pose)
    ensures var once := FixedUpdate(p, t1, r1);
      Displacement(FixedUpdate(once, t2, r2)) == Sub(Reading(p, t2, r2).position, once.fixedPosition)
    ensures !p.initialised || !p.hasRigidbody ==>
      Displacement(FixedUpdate(FixedUpdate(p, t1, r1), t2, r2)) == Sub(Reading(p, t2, r2).position, t1.position)
    ensures p.initialised && p.hasRigidbody ==>
      Displacement(FixedUpdate(FixedUpdate(p, t1, r1), t2, r2)) == Sub(r2.position, r1.position)
  {
  }
}

=== FILE: falling_state.dfy ===
/**
 * The falling motion-graph state. Each tick it splits the controller velocity
 * into a part along the controller's up axis and a horizontal remainder, picks
 * a target horizontal velocity from the input (or, without input, from a
 * momentum-conservation policy), applies drag, moves the horizontal velocity
 * towards the target either instantly or through `SmoothDamp`, and adds the
 * untouched up part back.
 */
module FallingState {
  import opened Options
  import opened Numerics
  import opened Vectors
  import opened VectorPrimitives

  /** `k_TinyValue`: input scales, drag coefficients and rates below it count as absent. */
  const TinyValue: real := 0.001

  /** The smoothing time interpolated by the damping setting runs between these bounds. */
  const MinSmoothTime: real := 0.05
  const MaxSmoothTime: real := 0.25

  const MaxHorizontalAcceleration: real := 1000.0

  datatype MomentumConservation = MaintainSpeed | ClampSpeed | ClampToInput

  /**
   * The serialized tunables. Every data reference is modelled by the value it
   * currently holds; `clampSpeed` is the legacy flag replaced by
   * `momentumConservation`.
   */
  datatype Settings = Settings(
    horizontalAcceleration: real,
    horizontalDeceleration: real,
    topSpeed: real,
    strafeMultiplier: real,
    reverseMultiplier: real,
    horizontalDrag: real,
    clampSpeed: bool,
    momentumConservation: MomentumConservation,
    damping: real)

  /** The field initialisers of the state. */
  const DefaultSettings: Settings := Settings(50.0, 50.0, 5.0, 0.75, 0.5, 0.0, false, MaintainSpeed, 0.25)

  /** The continuous variables: the `SmoothDamp` accumulator and the output velocity. */
  datatype Motor = Motor(motorAcceleration: Vec3, outVelocity: Vec3)

  /** What one tick reads from the character controller, the input and the clock. */
  datatype Frame = Frame(
    velocity: Vec3,
    up: Vec3,
    forward: Vec3,
    right: Vec3,
    inputMoveScale: real,
    inputMoveDirection: Vec2,
    deltaTime: real)

  /** A target horizontal velocity and whether reaching it counts as decelerating. */
  datatype Target = Target(velocity: Vec3, decelerating: bool)

  /** The tunable data references of the state, as named in the inspector. */
  datatype Tunable =
    | HorizontalAcceleration
    | HorizontalDeceleration
    | TopSpeed
    | StrafeMultiplier
    | ReverseMultiplier
    | HorizontalDrag

  // ---------------------------------------------------------------------------
  // Configuration

  /** The legacy `clampSpeed` flag becomes the `ClampSpeed` policy and is cleared. */
  function MigrateClampSpeed(s: Settings): Settings {
    if s.clampSpeed then s.(momentumConservation := ClampSpeed, clampSpeed := false) else s
  }

  /** Editor validation as written: clamps four tunables and migrates the legacy flag. */
  function OnValidate(s: Settings): (r: Settings)
    ensures 0.0 <= r.horizontalAcceleration <= MaxHorizontalAcceleration
    ensures 0.0 <= r.topSpeed <= 1.0
    ensures 0.0 <= r.strafeMultiplier <= 1.0 && 0.0 <= r.reverseMultiplier <= 1.0
    ensures 0.0 <= s.horizontalAcceleration <= MaxHorizontalAcceleration ==> r.horizontalAcceleration == s.horizontalAcceleration
    ensures 0.0 <= s.topSpeed <= 1.0 ==> r.topSpeed == s.topSpeed
    ensures 0.0 <= s.strafeMultiplier <= 1.0 ==> r.strafeMultiplier == s.strafeMultiplier
    ensures 0.0 <= s.reverseMultiplier <= 1.0 ==> r.reverseMultiplier == s.reverseMultiplier
    ensures s.horizontalAcceleration < 0.0 ==> r.horizontalAcceleration == 0.0
    ensures s.horizontalAcceleration > MaxHorizontalAcceleration ==> r.horizontalAcceleration == MaxHorizontalAcceleration
    ensures s.topSpeed < 0.0 ==> r.topSpeed == 0.0
    ensures s.topSpeed > 1.0 ==> r.topSpeed == 1.0
    ensures s.strafeMultiplier < 0.0 ==> r.strafeMultiplier == 0.0
    ensures s.strafeMultiplier > 1.0 ==> r.strafeMultiplier == 1.0
    ensures s.reverseMultiplier < 0.0 ==> r.reverseMultiplier == 0.0
    ensures s.reverseMultiplier > 1.0 ==> r.reverseMultiplier == 1.0
    ensures r.horizontalDeceleration == s.horizontalDeceleration
    ensures r.horizontalDrag == s.horizontalDrag && r.damping == s.damping
    ensures !r.clampSpeed
    ensures s.clampSpeed ==> r.momentumConservation == ClampSpeed
    ensures !s.clampSpeed ==> r.momentumConservation == s.momentumConservation
  {
    MigrateClampSpeed(s.(
      horizontalAcceleration := Clamp(s.horizontalAcceleration, 0.0, MaxHorizontalAcceleration),
      topSpeed := Clamp(s.topSpeed, 0.0, 1.0),
      strafeMultiplier := Clamp(s.strafeMultiplier, 0.0, 1.0),
      reverseMultiplier := Clamp(s.reverseMultiplier, 0.0, 1.0)))
  }

  /**
   * Editor validation with the top speed only kept non-negative, as the
   * declared default of 5 and the acceleration clamp suggest was meant;
   * everything else is validated exactly as `OnValidate` does.
   */
  function OnValidateIntended(s: Settings): (r: Settings)
    ensures r.topSpeed >= 0.0
    ensures s.topSpeed >= 0.0 ==> r.topSpeed == s.topSpeed
    ensures s.topSpeed < 0.0 ==> r.topSpeed == 0.0
    ensures r.(topSpeed := 0.0) == OnValidate(s).(topSpeed := 0.0)
  {
    OnValidate(s).(topSpeed := Max(s.topSpeed, 0.0))
  }

  /** The tunables whose graph binding is checked, in the order they are checked. */
  function CheckReferences(): (checked: seq<Tunable>)
    ensures |checked| == 5
    ensures HorizontalDrag !in checked
    ensures forall t: Tunable :: t != HorizontalDrag ==> t in checked
  {
    UncheckedTunableIsDrag();
    BoundTunables
  }

  const BoundTunables: seq<Tunable> :=
    [TopSpeed, StrafeMultiplier, ReverseMultiplier, HorizontalAcceleration, HorizontalDeceleration]

  lemma UncheckedTunableIsDrag()
    ensures forall t: Tunable :: t != HorizontalDrag ==> t in BoundTunables
  {
    forall t: Tunable | t != HorizontalDrag
      ensures t in BoundTunables
    {
      match t
      case TopSpeed => assert BoundTunables[0] == t;
      case StrafeMultiplier => assert BoundTunables[1] == t;
      case ReverseMultiplier => assert BoundTunables[2] == t;
      case HorizontalAcceleration => assert BoundTunables[3] == t;
      case HorizontalDeceleration => assert BoundTunables[4] == t;
    }
  }

  // ---------------------------------------------------------------------------
  // Lifecycle

  /** Entering the state resets the accumulator and seeds the output with the controller velocity. */
  function OnEnter(m: Motor, controllerVelocity: Vec3): (r: Motor)
    ensures r.motorAcceleration == Zero
    ensures r.outVelocity == controllerVelocity
  {
    Motor(Zero, controllerVelocity)
  }

  /** Leaving the state zeroes the output velocity and keeps the accumulator. */
  function OnExit(m: Motor): (r: Motor)
    ensures r.outVelocity == Zero
    ensures r.motorAcceleration == m.motorAcceleration
  {
    m.(outVelocity := Zero)
  }

  /** The motion handed to the controller for a tick of length `deltaTime`. */
  function MoveVector(m: Motor, deltaTime: real): (r: Vec3)
    ensures SqrMag(r) == deltaTime * deltaTime * SqrMag(m.outVelocity)
    ensures forall u: Vec3 :: Dot(r, u) == deltaTime * Dot(m.outVelocity, u)
  {
    SqrMagScale(m.outVelocity, deltaTime);
    Scale(m.outVelocity, deltaTime)
  }

  // ---------------------------------------------------------------------------
  // The velocity step

  /** Splits a velocity into its part along `up` and the horizontal remainder. */
  function SplitVelocity(velocity: Vec3, up: Vec3): (r: (Vec3, Vec3))
    ensures Add(r.1, r.0) == velocity
    ensures SqrMag(up) == 1.0 ==> Dot(r.1, up) == 0.0 && Dot(r.0, up) == Dot(velocity, up)
  {
    var upVelocity := Scale(up, Dot(velocity, up));
    DotScale(up, Dot(velocity, up), up);
    DotSub(velocity, upVelocity, up);
    (upVelocity, Sub(velocity, upVelocity))
  }

  /** The slow-down for backward input: 1 unless moving backwards, then blended towards the reverse multiplier. */
  function ReverseFactor(reverseMultiplier: real, inputY: real): (r: real)
    ensures 0.0 <= reverseMultiplier <= 1.0 ==> reverseMultiplier <= r <= 1.0
    ensures inputY >= 0.0 ==> r == 1.0
    ensures inputY <= -1.0 ==> r == reverseMultiplier
  {
    if inputY < 0.0 then Lerp(1.0, reverseMultiplier, -inputY) else 1.0
  }

  /** The slow-down for sideways input, blended towards the strafe multiplier by the lateral input. */
  function StrafeFactor(strafeMultiplier: real, inputX: real): (r: real)
    ensures 0.0 <= strafeMultiplier <= 1.0 ==> strafeMultiplier <= r <= 1.0
    ensures inputX == 0.0 ==> r == 1.0
    ensures inputX >= 1.0 || inputX <= -1.0 ==> r == strafeMultiplier
  {
    Lerp(1.0, strafeMultiplier, Abs(inputX))
  }

  /** The speed multiplier for an input direction: the reverse factor times the strafe factor. */
  function DirectionMultiplier(strafeMultiplier: real, reverseMultiplier: real, direction: Vec2): (r: real)
    ensures direction.x == 0.0 && direction.y >= 0.0 ==> r == 1.0
  {
    ReverseFactor(reverseMultiplier, direction.y) * StrafeFactor(strafeMultiplier, direction.x)
  }

  /** With both multipliers in [0,1] the direction multiplier lies between their product and 1. */
  lemma DirectionMultiplierBounds(strafeMultiplier: real, reverseMultiplier: real, direction: Vec2)
    requires 0.0 <= strafeMultiplier <= 1.0 && 0.0 <= reverseMultiplier <= 1.0
    ensures 0.0 <= strafeMultiplier * reverseMultiplier
    ensures strafeMultiplier * reverseMultiplier <= DirectionMultiplier(strafeMultiplier, reverseMultiplier, direction) <= 1.0
  {
    var a := ReverseFactor(reverseMultiplier, direction.y);
    var b := StrafeFactor(strafeMultiplier, direction.x);
    ProductOfFactors(a, b, reverseMultiplier, strafeMultiplier);
  }

  /** Two factors each between a non-negative floor and 1 multiply to between the product of the floors and 1. */
  lemma ProductOfFactors(a: real, b: real, lowA: real, lowB: real)
    requires 0.0 <= lowA <= a <= 1.0 && 0.0 <= lowB <= b <= 1.0
    ensures 0.0 <= lowB * lowA <= a * b <= 1.0
  {
    MulNonNegative(lowA, lowB);
    MulNonNegative(a - lowA, lowB);
    MulNonNegative(a, b - lowB);
    MulNonNegative(1.0 - a, b);
    assert lowA * lowB <= a * lowB <= a * b;
    assert a * b <= b <= 1.0;
  }

  /** The world-space direction the input asks for. */
  function MoveDirection(f: Frame): Vec3 {
    Add(Scale(f.forward, f.inputMoveDirection.y), Scale(f.right, f.inputMoveDirection.x))
  }

  /** Whether the speed already aligned with the input is cut back to the top speed. */
  predicate ClampsAlignedSpeed(policy: MomentumConservation, topSpeed: real, alignedSpeed: real) {
    policy != MaintainSpeed && alignedSpeed > topSpeed
  }

  /** The speed along the input direction that the target asks for. */
  function SteerSpeed(policy: MomentumConservation, topSpeed: real, inputSpeed: real, alignedSpeed: real): (r: real)
    ensures r >= inputSpeed
    ensures r == inputSpeed || r == alignedSpeed || r == topSpeed
    ensures policy == MaintainSpeed ==> r >= alignedSpeed
    ensures policy != MaintainSpeed ==> Min(alignedSpeed, topSpeed) <= r <= Max(inputSpeed, topSpeed)
    ensures policy == MaintainSpeed ==> r == Max(inputSpeed, alignedSpeed)
    ensures policy != MaintainSpeed ==> r == Max(inputSpeed, Min(alignedSpeed, topSpeed))
  {
    Max(inputSpeed, if ClampsAlignedSpeed(policy, topSpeed, alignedSpeed) then topSpeed else alignedSpeed)
  }

  /** The target with input present: along the input direction, at least the input-driven speed. */
  function SteerTarget(s: Settings, f: Frame, horizontal: Vec3, directionMultiplier: real): (t: Target)
    ensures t.decelerating <==> s.momentumConservation != MaintainSpeed && Dot(horizontal, MoveDirection(f)) > s.topSpeed
    ensures s.momentumConservation == MaintainSpeed ==>
      t.velocity == Scale(MoveDirection(f), Max(s.topSpeed * f.inputMoveScale * directionMultiplier, Dot(horizontal, MoveDirection(f))))
    ensures s.momentumConservation != MaintainSpeed ==>
      t.velocity == Scale(MoveDirection(f),
        Max(s.topSpeed * f.inputMoveScale * directionMultiplier, Min(Dot(horizontal, MoveDirection(f)), s.topSpeed)))
  {
    var direction := MoveDirection(f);
    var inputSpeed := s.topSpeed * f.inputMoveScale * directionMultiplier;
    var alignedSpeed := Dot(horizontal, direction);
    var decelerating := ClampsAlignedSpeed(s.momentumConservation, s.topSpeed, alignedSpeed);
    Target(Scale(direction, SteerSpeed(s.momentumConservation, s.topSpeed, inputSpeed, alignedSpeed)), decelerating)
  }

  /** The target without input, chosen by the momentum-conservation policy. */
  function CoastTarget(
    policy: MomentumConservation, horizontal: Vec3, topSpeed: real, clampMagnitude: (Vec3, real) -> Vec3): (t: Target)
    ensures policy == MaintainSpeed ==> t == Target(horizontal, false)
    ensures policy == ClampToInput ==> t == Target(Zero, true)
    ensures policy == ClampSpeed ==>
      t.velocity == clampMagnitude(horizontal, topSpeed)
      && (t.decelerating <==> SqrMag(horizontal) > SqrMag(t.velocity))
  {
    match policy
    case MaintainSpeed => Target(horizontal, false)
    case ClampSpeed =>
      var clamped := clampMagnitude(horizontal, topSpeed);
      Target(clamped, SqrMag(horizontal) > SqrMag(clamped))
    case ClampToInput => Target(Zero, true)
  }

  /** The factor drag scales the target by over one tick. */
  function DragFactor(drag: real, deltaTime: real): (k: real)
    ensures 0.0 <= k <= 1.0
    ensures drag <= TinyValue || deltaTime == 0.0 ==> k == 1.0
    ensures drag > TinyValue && deltaTime > 0.0 ==> k < 1.0
  {
    if drag > TinyValue then Clamp01(1.0 - drag * deltaTime) else 1.0
  }

  /** Linear drag on the target: a scaling by the drag factor, so it never lengthens it and never turns it around. */
  function ApplyDrag(v: Vec3, drag: real, deltaTime: real): (r: Vec3)
    ensures r == Scale(v, DragFactor(drag, deltaTime))
    ensures SqrMag(r) <= SqrMag(v)
    ensures Dot(r, v) >= 0.0
    ensures drag <= TinyValue ==> r == v
  {
    var k := DragFactor(drag, deltaTime);
    SqrMagScale(v, k);
    DotScale(v, k, v);
    SqrMagNonNegative(v);
    MulNonNegative(k, SqrMag(v));
    MulNonNegative(1.0 - k * k, SqrMag(v));
    if drag <= TinyValue then v else Scale(v, k)
  }

  /** The rate the horizontal velocity changes at: the deceleration exactly when decelerating. */
  function Rate(s: Settings, decelerating: bool): real {
    if decelerating then s.horizontalDeceleration else s.horizontalAcceleration
  }

  /** The smoothing time interpolated by the damping setting. */
  function SmoothTime(damping: real): (t: real)
    ensures MinSmoothTime <= t <= MaxSmoothTime
    ensures damping <= 0.0 ==> t == MinSmoothTime
    ensures damping >= 1.0 ==> t == MaxSmoothTime
  {
    Lerp(MinSmoothTime, MaxSmoothTime, damping)
  }

  /** The new horizontal velocity and accumulator, and the smoothing call made if any. */
  datatype HorizontalStep = HorizontalStep(velocity: Vec3, motorAcceleration: Vec3, smoothing: Option<SmoothDampCall>)

  /**
   * Moves the horizontal velocity towards the target: instantly when the rate
   * is negligible or the target is (approximately) reached, otherwise through
   * one `SmoothDamp` call capped at the rate times the direction multiplier.
   */
  function ChangeVelocity(
    s: Settings, horizontal: Vec3, target: Target, directionMultiplier: real,
    accumulator: Vec3, deltaTime: real, smoothDamp: SmoothDampCall -> SmoothDampResult): (r: HorizontalStep)
    ensures r.smoothing.None? <==> Rate(s, target.decelerating) < TinyValue || ApproximatelyEqual(target.velocity, horizontal)
    ensures r.smoothing.None? ==> r.velocity == target.velocity && r.motorAcceleration == accumulator
    ensures r.smoothing.Some? ==>
      var call := r.smoothing.value;
      && call.current == horizontal
      && call.target == target.velocity
      && call.currentVelocity == accumulator
      && call.smoothTime == SmoothTime(s.damping)
      && call.maxSpeed == Rate(s, target.decelerating) * directionMultiplier
      && call.deltaTime == deltaTime
      && r.velocity == smoothDamp(call).position
      && r.motorAcceleration == smoothDamp(call).currentVelocity
  {
    var rate := Rate(s, target.decelerating);
    if rate < TinyValue || ApproximatelyEqual(target.velocity, horizontal) then
      HorizontalStep(target.velocity, accumulator, None)
    else
      var call := SmoothDampCall(horizontal, target.velocity, accumulator, SmoothTime(s.damping), rate * directionMultiplier, deltaTime);
      var result := smoothDamp(call);
      HorizontalStep(result.position, result.currentVelocity, Some(call))
  }

  /** Every intermediate value of one tick. */
  datatype TickPlan = TickPlan(
    upVelocity: Vec3,
    horizontal: Vec3,
    directionMultiplier: real,
    target: Target,
    draggedTarget: Vec3,
    step: HorizontalStep)

  predicate Coasting(f: Frame) {
    f.inputMoveScale < TinyValue
  }

  function Plan(s: Settings, m: Motor, f: Frame, p: Primitives): TickPlan {
    var (upVelocity, horizontal) := SplitVelocity(f.velocity, f.up);
    var directionMultiplier :=
      if Coasting(f) then 1.0 else DirectionMultiplier(s.strafeMultiplier, s.reverseMultiplier, f.inputMoveDirection);
    var target :=
      if Coasting(f) then CoastTarget(s.momentumConservation, horizontal, s.topSpeed, p.clampMagnitude)
      else SteerTarget(s, f, horizontal, directionMultiplier);
    var dragged := ApplyDrag(target.velocity, s.horizontalDrag, f.deltaTime);
    var step := ChangeVelocity(
      s, horizontal, Target(dragged, target.decelerating), directionMultiplier, m.motorAcceleration, f.deltaTime, p.smoothDamp);
    TickPlan(upVelocity, horizontal, directionMultiplier, target, dragged, step)
  }

  /**
   * One tick: the stepped horizontal velocity put back on the plane plus the
   * up part. The accumulator changes only through a `SmoothDamp` call, and for
   * a unit up axis the output keeps the controller's up component whatever
   * `SmoothDamp` returns.
   */
  function Update(s: Settings, m: Motor, f: Frame, p: Primitives): (r: Motor)
    ensures Plan(s, m, f, p).step.smoothing.None? ==> r.motorAcceleration == m.motorAcceleration
    ensures Plan(s, m, f, p).step.smoothing.Some? ==>
      r.motorAcceleration == p.smoothDamp(Plan(s, m, f, p).step.smoothing.value).currentVelocity
    ensures ValidProjectOnPlane(p.projectOnPlane) && SqrMag(f.up) == 1.0 ==> Dot(r.outVelocity, f.up) == Dot(f.velocity, f.up)
  {
    var plan := Plan(s, m, f, p);
    var v := plan.step.velocity;
    DotScale(f.up, Dot(v, f.up), f.up);
    DotSub(v, Scale(f.up, Dot(v, f.up)), f.up);
    DotAdd(p.projectOnPlane(v, f.up), plan.upVelocity, f.up);
    Motor(plan.step.motorAcceleration, Add(p.projectOnPlane(plan.step.velocity, f.up), plan.upVelocity))
  }

  // ---------------------------------------------------------------------------
  // Save / load

  /** A persistence record of this state: vector values under string keys. */
  type Record = map<string, Vec3>

  const AccelerationKey: string := "acceleration"
  const VelocityKey: string := "velocity"

  /** Writes the accumulator and the output velocity under their two keys. */
  function WriteProperties(m: Motor, rec: Record): (r: Record)
    ensures AccelerationKey in r && r[AccelerationKey] == m.motorAcceleration
    ensures VelocityKey in r && r[VelocityKey] == m.outVelocity
    ensures forall k :: k in rec && k != AccelerationKey && k != VelocityKey ==> k in r && r[k] == rec[k]
    ensures r.Keys == rec.Keys + {AccelerationKey, VelocityKey}
  {
    rec[AccelerationKey := m.motorAcceleration][VelocityKey := m.outVelocity]
  }

  /** Reads both variables back; a missing key keeps the value currently held. */
  function ReadProperties(current: Motor, rec: Record): (r: Motor)
    ensures AccelerationKey in rec ==> r.motorAcceleration == rec[AccelerationKey]
    ensures AccelerationKey !in rec ==> r.motorAcceleration == current.motorAcceleration
    ensures VelocityKey in rec ==> r.outVelocity == rec[VelocityKey]
    ensures VelocityKey !in rec ==> r.outVelocity == current.outVelocity
  {
    Motor(
      if AccelerationKey in rec then rec[AccelerationKey] else current.motorAcceleration,
      if VelocityKey in rec then rec[VelocityKey] else current.outVelocity)
  }
}

=== FILE: falling_state_properties.dfy ===
/**
 * Properties of the falling state that relate several of its operations or
 * need the contracts of the engine's vector primitives.
 */
module FallingStateProperties {
  import opened Options
  import opened Numerics
  import opened Vectors
  import opened VectorPrimitives
  import opened FallingState

  // ---------------------------------------------------------------------------
  // Configuration

  /** A second validation changes nothing. */
  lemma OnValidateIdempotent(s: Settings)
    ensures OnValidate(OnValidate(s)) == OnValidate(s)
  {
  }

  /** The declared default top speed of 5 does not survive validation as written. */
  lemma OnValidateClampsDefaultTopSpeed()
    ensures DefaultSettings.topSpeed == 5.0
    ensures OnValidate(DefaultSettings).topSpeed == 1.0
    ensures OnValidate(DefaultSettings) != DefaultSettings
  {
  }

  /** With the intended bound the defaults are already valid, and validation stays idempotent. */
  lemma OnValidateIntendedKeepsDefaults(s: Settings)
    ensures OnValidateIntended(DefaultSettings) == DefaultSettings
    ensures OnValidateIntended(OnValidateIntended(s)) == OnValidateIntended(s)
  {
  }

  // ---------------------------------------------------------------------------
  // Lifecycle and persistence

  /** Entering seeds the state from the controller alone: nothing of the previous motor survives. */
  lemma OnEnterForgetsPreviousMotor(m1: Motor, m2: Motor, controllerVelocity: Vec3)
    ensures OnEnter(m1, controllerVelocity) == OnEnter(m2, controllerVelocity)
    ensures MoveVector(OnEnter(m1, controllerVelocity), 1.0) == controllerVelocity
  {
  }

  /** After leaving, the state hands the controller no motion, whatever the tick length. */
  lemma OnExitStopsMotion(m: Motor, deltaTime: real)
    ensures MoveVector(OnExit(m), deltaTime) == Zero
    ensures OnExit(OnExit(m)) == OnExit(m)
  {
  }

  /** Reading back what was written restores both variables, whatever was held before. */
  lemma SaveLoadRoundTrip(m: Motor, current: Motor, rec: Record)
    ensures ReadProperties(current, WriteProperties(m, rec)) == m
  {
  }

  /** A record without either key leaves the held variables untouched. */
  lemma LoadFromEmptyRecordKeepsMotor(current: Motor)
    ensures ReadProperties(current, map[]) == current
  {
  }

  /** A tick never reads the previous output velocity: only the accumulator carries over. */
  lemma UpdateIgnoresPreviousOutput(s: Settings, m1: Motor, m2: Motor, f: Frame, p: Primitives)
    requires m1.motorAcceleration == m2.motorAcceleration
    ensures Update(s, m1, f, p) == Update(s, m2, f, p)
  {
  }

  /** Resuming from a saved record continues exactly as the uninterrupted state would. */
  lemma ResumeAfterLoad(s: Settings, m: Motor, current: Motor, rec: Record, f: Frame, p: Primitives)
    ensures Update(s, ReadProperties(current, WriteProperties(m, rec)), f, p) == Update(s, m, f, p)
  {
    SaveLoadRoundTrip(m, current, rec);
  }

  // ---------------------------------------------------------------------------
  // Targets

  /** Without input under `ClampSpeed` the target is the horizontal velocity clamped to top speed, decelerating iff it was faster. */
  lemma CoastClampSpeed(horizontal: Vec3, topSpeed: real, clampMagnitude: (Vec3, real) -> Vec3)
    requires ValidClampMagnitude(clampMagnitude)
    ensures SqrMag(CoastTarget(ClampSpeed, horizontal, topSpeed, clampMagnitude).velocity)
         == Min(SqrMag(horizontal), topSpeed * topSpeed)
    ensures CoastTarget(ClampSpeed, horizontal, topSpeed, clampMagnitude).decelerating
        <==> SqrMag(horizontal) > topSpeed * topSpeed
  {
    assert SqrMag(clampMagnitude(horizontal, topSpeed)) == Min(SqrMag(horizontal), topSpeed * topSpeed);
  }

  /** Without input the tick's target is the one its momentum-conservation policy picks. */
  lemma CoastingTargetFollowsPolicy(s: Settings, m: Motor, f: Frame, p: Primitives)
    requires ValidClampMagnitude(p.clampMagnitude)
    requires Coasting(f)
    ensures var plan := Plan(s, m, f, p);
      && plan.directionMultiplier == 1.0
      && (s.momentumConservation == MaintainSpeed ==> plan.target == Target(plan.horizontal, false))
      && (s.momentumConservation == ClampSpeed ==>
            SqrMag(plan.target.velocity) == Min(SqrMag(plan.horizontal), s.topSpeed * s.topSpeed)
            && (plan.target.decelerating <==> SqrMag(plan.horizontal) > s.topSpeed * s.topSpeed))
      && (s.momentumConservation == ClampToInput ==> plan.target == Target(Zero, true))
  {
    var plan := Plan(s, m, f, p);
    assert plan.target == CoastTarget(s.momentumConservation, plan.horizontal, s.topSpeed, p.clampMagnitude);
    if s.momentumConservation == ClampSpeed {
      CoastClampSpeed(plan.horizontal, s.topSpeed, p.clampMagnitude);
    }
  }

  /** With input the tick's target is the steering target for the tick's direction multiplier, decelerating only when the aligned speed is cut back. */
  lemma SteeringTargetFollowsInput(s: Settings, m: Motor, f: Frame, p: Primitives)
    requires !Coasting(f)
    ensures var plan := Plan(s, m, f, p);
      && plan.directionMultiplier == DirectionMultiplier(s.strafeMultiplier, s.reverseMultiplier, f.inputMoveDirection)
      && plan.target == SteerTarget(s, f, plan.horizontal, plan.directionMultiplier)
      && (plan.target.decelerating <==>
            s.momentumConservation != MaintainSpeed && Dot(plan.horizontal, MoveDirection(f)) > s.topSpeed)
  {
  }

  /**
   * The steering speed never falls below the input speed; above it, momentum is
   * kept in full under `MaintainSpeed` and up to the top speed otherwise.
   */
  lemma SteerSpeedAboveInput(policy: MomentumConservation, topSpeed: real, inputSpeed: real, alignedSpeed: real)
    requires alignedSpeed > inputSpeed
    ensures policy == MaintainSpeed ==> SteerSpeed(policy, topSpeed, inputSpeed, alignedSpeed) == alignedSpeed
    ensures policy != MaintainSpeed && alignedSpeed <= topSpeed ==> SteerSpeed(policy, topSpeed, inputSpeed, alignedSpeed) == alignedSpeed
    ensures policy != MaintainSpeed && alignedSpeed > topSpeed ==>
      SteerSpeed(policy, topSpeed, inputSpeed, alignedSpeed) == Max(inputSpeed, topSpeed)
  {
  }

  /** Pure backward input is slowed by exactly the reverse multiplier. */
  lemma PureReverseMultiplier(direction: Vec2, strafeMultiplier: real, reverseMultiplier: real)
    requires direction.x == 0.0 && direction.y == -1.0
    ensures DirectionMultiplier(strafeMultiplier, reverseMultiplier, direction) == reverseMultiplier
  {
    assert ReverseFactor(reverseMultiplier, direction.y) == reverseMultiplier;
    assert StrafeFactor(strafeMultiplier, direction.x) == 1.0;
  }

  /** Pure sideways input is slowed by exactly the strafe multiplier. */
  lemma PureStrafeMultiplier(direction: Vec2, strafeMultiplier: real, reverseMultiplier: real)
    requires direction.x == 1.0 && direction.y == 0.0
    ensures DirectionMultiplier(strafeMultiplier, reverseMultiplier, direction) == strafeMultiplier
  {
    assert ReverseFactor(reverseMultiplier, direction.y) == 1.0;
    assert StrafeFactor(strafeMultiplier, direction.x) == strafeMultiplier;
  }

  /** The worked multipliers: with strafe 0.75 and reverse 0.5, a pure strafe gets 0.75 and pure reverse input 0.5. */
  lemma DirectionMultiplierExamples()
    ensures DirectionMultiplier(0.75, 0.5, Vec2(1.0, 0.0)) == 0.75
    ensures DirectionMultiplier(0.75, 0.5, Vec2(0.0, -1.0)) == 0.5
  {
    PureStrafeMultiplier(Vec2(1.0, 0.0), 0.75, 0.5);
    PureReverseMultiplier(Vec2(0.0, -1.0), 0.75, 0.5);
  }

  /** A pure strafe from rest with a top speed of 5 and multiplier 0.75 targets 3.75 along `right`. */
  lemma StrafeExample(forward: Vec3, right: Vec3)
    ensures SteerTarget(DefaultSettings, Frame(Zero, Zero, forward, right, 1.0, Vec2(1.0, 0.0), 0.02), Zero, 0.75).velocity
         == Scale(right, 3.75)
  {
    var f := Frame(Zero, Zero, forward, right, 1.0, Vec2(1.0, 0.0), 0.02);
    var d := MoveDirection(f);
    assert d == right;
    assert Dot(Zero, d) == 0.0;
    var speed := SteerSpeed(MaintainSpeed, 5.0, 5.0 * 1.0 * 0.75, 0.0);
    assert speed == 3.75;
    assert SteerTarget(DefaultSettings, f, Zero, 0.75).velocity == Scale(d, speed);
  }

  /** Pure reverse input from rest with a top speed of 5 and multiplier 0.5 targets 2.5 backwards. */
  lemma ReverseExample(forward: Vec3, right: Vec3)
    ensures SteerTarget(DefaultSettings, Frame(Zero, Zero, forward, right, 1.0, Vec2(0.0, -1.0), 0.02), Zero, 0.5).velocity
         == Scale(forward, -2.5)
  {
    var f := Frame(Zero, Zero, forward, right, 1.0, Vec2(0.0, -1.0), 0.02);
    var d := MoveDirection(f);
    assert d == Scale(forward, -1.0);
    assert Dot(Zero, d) == 0.0;
    var speed := SteerSpeed(MaintainSpeed, 5.0, 5.0 * 1.0 * 0.5, 0.0);
    assert speed == 2.5;
    assert SteerTarget(DefaultSettings, f, Zero, 0.5).velocity == Scale(d, speed);
    assert Scale(Scale(forward, -1.0), 2.5) == Scale(forward, -2.5);
  }

  /** Forward input without strafing always gets the full top speed. */
  lemma ForwardInputHasNoPenalty(s: Settings, direction: Vec2)
    requires direction.x == 0.0 && direction.y >= 0.0
    ensures DirectionMultiplier(s.strafeMultiplier, s.reverseMultiplier, direction) == 1.0
  {
  }

  // ---------------------------------------------------------------------------
  // Drag and the velocity change

  /** Drag is applied to the target before the rate is chosen: smoothing aims at the dragged target, snapping lands on it. */
  lemma DragPrecedesVelocityChange(s: Settings, m: Motor, f: Frame, p: Primitives)
    ensures var plan := Plan(s, m, f, p);
      && plan.draggedTarget == ApplyDrag(plan.target.velocity, s.horizontalDrag, f.deltaTime)
      && (plan.step.smoothing.Some? ==>
            plan.step.smoothing.value.target == plan.draggedTarget
            && plan.step.smoothing.value.maxSpeed == Rate(s, plan.target.decelerating) * plan.directionMultiplier)
      && (plan.step.smoothing.None? ==> plan.step.velocity == plan.draggedTarget)
      && (s.horizontalDrag <= TinyValue ==> plan.draggedTarget == plan.target.velocity)
  {
  }

  /**
   * Real drag over a positive frame time strictly shortens a non-zero target:
   * by the factor `1 - drag * deltaTime` while that is positive, and to zero
   * once a single frame's drag reaches the whole target.
   */
  lemma DragShortensTarget(v: Vec3, drag: real, deltaTime: real)
    requires drag > TinyValue && deltaTime > 0.0
    ensures SqrMag(v) > 0.0 ==> SqrMag(ApplyDrag(v, drag, deltaTime)) < SqrMag(v)
    ensures drag * deltaTime < 1.0 ==> ApplyDrag(v, drag, deltaTime) == Scale(v, 1.0 - drag * deltaTime)
    ensures drag * deltaTime >= 1.0 ==> ApplyDrag(v, drag, deltaTime) == Zero
  {
    var k := DragFactor(drag, deltaTime);
    SqrMagScale(v, k);
    MulNonNegative(k, 1.0 - k);
    MulNonNegative(1.0 - k * k, SqrMag(v));
    if SqrMag(v) > 0.0 {
      assert k * k < 1.0;
      assert (1.0 - k * k) * SqrMag(v) > 0.0 by { StrictlyPositiveProduct(1.0 - k * k, SqrMag(v)); }
    }
  }

  lemma StrictlyPositiveProduct(x: real, y: real)
    requires x > 0.0 && y > 0.0
    ensures x * y > 0.0
  {
  }

  /** A negligible rate, or a target reached up to the engine's vector tolerance, snaps the horizontal velocity and leaves the accumulator alone. */
  lemma SnapWhenRateNegligibleOrReached(s: Settings, m: Motor, f: Frame, p: Primitives)
    ensures var plan := Plan(s, m, f, p);
      (Rate(s, plan.target.decelerating) < TinyValue || ApproximatelyEqual(plan.draggedTarget, plan.horizontal)) ==>
        && plan.step.smoothing.None?
        && plan.step.velocity == plan.draggedTarget
        && Update(s, m, f, p).motorAcceleration == m.motorAcceleration
  {
  }

  // ---------------------------------------------------------------------------
  // The vertical component

  /** The motion handed over after a tick moves along up by exactly the controller's vertical velocity times the tick. */
  lemma VerticalMotionPreserved(s: Settings, m: Motor, f: Frame, p: Primitives)
    requires ValidProjectOnPlane(p.projectOnPlane)
    requires SqrMag(f.up) == 1.0
    ensures Dot(MoveVector(Update(s, m, f, p), f.deltaTime), f.up) == f.deltaTime * Dot(f.velocity, f.up)
  {
    MoveAlong(Update(s, m, f, p), f.deltaTime, f.up, f.velocity);
  }

  lemma MoveAlong(m: Motor, deltaTime: real, u: Vec3, v: Vec3)
    requires Dot(m.outVelocity, u) == Dot(v, u)
    ensures Dot(MoveVector(m, deltaTime), u) == deltaTime * Dot(v, u)
  {
  }

  /** Coasting under `MaintainSpeed` without drag keeps the controller velocity exactly. */
  lemma CoastingMaintainsVelocity(s: Settings, m: Motor, f: Frame, p: Primitives)
    requires ValidProjectOnPlane(p.projectOnPlane)
    requires SqrMag(f.up) == 1.0
    requires Coasting(f) && s.momentumConservation == MaintainSpeed && s.horizontalDrag <= TinyValue
    ensures Update(s, m, f, p) == Motor(m.motorAcceleration, f.velocity)
  {
    var plan := Plan(s, m, f, p);
    ApproximatelyEqualReflexive(plan.horizontal);
    assert plan.step.velocity == plan.horizontal;
    assert Dot(plan.horizontal, f.up) == 0.0;
    assert p.projectOnPlane(plan.horizontal, f.up) == Sub(plan.horizontal, Scale(f.up, Dot(plan.horizontal, f.up)));
    assert p.projectOnPlane(plan.horizontal, f.up) == plan.horizontal;
  }

  /** Coasting under `ClampToInput` with a negligible deceleration stops all horizontal motion in one tick. */
  lemma ClampToInputStopsInstantly(s: Settings, m: Motor, f: Frame, p: Primitives)
    requires ValidProjectOnPlane(p.projectOnPlane)
    requires SqrMag(f.up) == 1.0
    requires Coasting(f) && s.momentumConservation == ClampToInput && s.horizontalDeceleration < TinyValue
    ensures Update(s, m, f, p) == Motor(m.motorAcceleration, Scale(f.up, Dot(f.velocity, f.up)))
  {
    var plan := Plan(s, m, f, p);
    assert plan.draggedTarget == Zero by {
      DotScale(Zero, DragFactor(s.horizontalDrag, f.deltaTime), Zero);
    }
    assert plan.step.velocity == Zero;
    assert p.projectOnPlane(Zero, f.up) == Sub(Zero, Scale(f.up, Dot(Zero, f.up)));
  }
}

=== FILE: options.dfy ===
/**
 * The optional value used wherever the source works with a reference that may
 * be null, and the null-skipping traversal of arrays of such references.
 */
module Options {

  datatype Option<+T> = None | Some(value: T)

  /** The number of null entries. */
  function NoneCount<T>(s: seq<Option<T>>): nat {
    if s == [] then 0 else (if s[0].None? then 1 else 0) + NoneCount(s[1..])
  }

  /** The values of the non-null entries, in array order. */
  function Present<T>(s: seq<Option<T>>): (r: seq<T>)
    ensures |r| == |s| - NoneCount(s)
    ensures NoneCount(s) == 0 ==> |r| == |s|
  {
    if s == [] then [] else (if s[0].Some? then [s[0].value] else []) + Present(s[1..])
  }

  /** Every value as a non-null entry. */
  function Lift<T>(xs: seq<T>): (r: seq<Option<T>>)
    ensures |r| == |xs|
    ensures forall i :: 0 <= i < |xs| ==> r[i] == Some(xs[i])
  {
    seq(|xs|, i requires 0 <= i < |xs| => Some(xs[i]))
  }

  /** Skipping nulls distributes over concatenation, so the kept values stay in their relative order. */
  lemma {:induction false} PresentAppend<T>(a: seq<Option<T>>, b: seq<Option<T>>)
    ensures Present(a + b) == Present(a) + Present(b)
  {
    if a == [] {
      assert a + b == b;
    } else {
      assert (a + b)[1..] == a[1..] + b;
      PresentAppend(a[1..], b);
    }
  }

  /** A value is kept exactly when it occurs as a non-null entry. */
  lemma {:induction false} PresentMembership<T>(s: seq<Option<T>>, x: T)
    ensures x in Present(s) <==> Some(x) in s
  {
    if s != [] {
      PresentMembership(s[1..], x);
      assert s == [s[0]] + s[1..];
    }
  }

  /** Lifted values contain no null and skipping nulls gives the values back. */
  lemma {:induction false} PresentOfLift<T>(xs: seq<T>)
    ensures NoneCount(Lift(xs)) == 0
    ensures Present(Lift(xs)) == xs
  {
    if xs != [] {
      assert Lift(xs)[1..] == Lift(xs[1..]);
      PresentOfLift(xs[1..]);
    }
  }

  /** Without nulls, lifting the kept values rebuilds the array. */
  lemma {:induction false} LiftOfPresent<T>(s: seq<Option<T>>)
    requires NoneCount(s) == 0
    ensures Lift(Present(s)) == s
  {
    if s != [] {
      LiftOfPresent(s[1..]);
      assert Lift(Present(s)) == [s[0]] + Lift(Present(s[1..]));
    }
  }

  /** Counting nulls distributes over concatenation. */
  lemma {:induction false} NoneCountAppend<T>(a: seq<Option<T>>, b: seq<Option<T>>)
    ensures NoneCount(a + b) == NoneCount(a) + NoneCount(b)
  {
    if a == [] {
      assert a + b == b;
    } else {
      assert (a + b)[1..] == a[1..] + b;
      NoneCountAppend(a[1..], b);
    }
  }
}

=== FILE: ordered_spawn_point_group.dfy ===
/**
 * An ordered group of spawn points. Editor validation strips null entries while
 * keeping the order of the rest; registering and unregistering the group visits
 * every non-null spawn point in array order.
 */
module OrderedSpawnPointGroup {
  import opened Options

  type SpawnPointId = nat

  /** The serialized fields: whether to register on awake, and the array of spawn points (entries may be null). */
  datatype Group = Group(registerOnAwake: bool, spawnPoints: seq<Option<SpawnPointId>>)

  /** The field initialisers. */
  const DefaultGroup: Group := Group(true, [])

  /** A call made on one spawn point. */
  datatype SpawnPointCall = Register(point: SpawnPointId) | Unregister(point: SpawnPointId)

  /** The array with its nulls removed and the other entries in their original order. */
  method OnValidate(g: Group) returns (r: Group)
    ensures r.registerOnAwake == g.registerOnAwake
    ensures NoneCount(r.spawnPoints) == 0
    ensures Present(r.spawnPoints) == Present(g.spawnPoints)
    ensures |r.spawnPoints| == |g.spawnPoints| - NoneCount(g.spawnPoints)
    ensures NoneCount(g.spawnPoints) == 0 ==> r == g
  {
    var s := g.spawnPoints;
    var nullSpawns := 0;
    var i := 0;
    while i < |s|
      invariant 0 <= i <= |s|
      invariant nullSpawns == NoneCount(s[..i])
    {
      assert s[..i + 1] == s[..i] + [s[i]];
      NoneCountAppend(s[..i], [s[i]]);
      if s[i].None? {
        nullSpawns := nullSpawns + 1;
      }
      i := i + 1;
    }
    assert s[..|s|] == s;
    r := g;
    if nullSpawns > 0 {
      var temp: seq<SpawnPointId> := [];
      i := 0;
      while i < |s|
        invariant 0 <= i <= |s|
        invariant temp == Present(s[..i])
      {
        assert s[..i + 1] == s[..i] + [s[i]];
        PresentAppend(s[..i], [s[i]]);
        if s[i].Some? {
          temp := temp + [s[i].value];
        }
        i := i + 1;
      }
      PresentOfLift(temp);
      r := g.(spawnPoints := Lift(temp));
    } else {
      LiftOfPresent(s);
      PresentOfLift(Present(s));
    }
  }

  /** The calls a traversal makes: one per non-null entry, in array order. */
  function Visit(points: seq<SpawnPointId>, register: bool): (r: seq<SpawnPointCall>)
    ensures |r| == |points|
    ensures forall i :: 0 <= i < |points| ==> r[i] == (if register then Register(points[i]) else Unregister(points[i]))
  {
    seq(|points|, i requires 0 <= i < |points| => if register then Register(points[i]) else Unregister(points[i]))
  }

  /** Registers every non-null spawn point in array order. */
  method RegisterAll(g: Group) returns (calls: seq<SpawnPointCall>)
    ensures calls == Visit(Present(g.spawnPoints), true)
  {
    calls := Traverse(g.spawnPoints, true);
  }

  /** Unregisters every non-null spawn point in array order. */
  method UnregisterAll(g: Group) returns (calls: seq<SpawnPointCall>)
    ensures calls == Visit(Present(g.spawnPoints), false)
  {
    calls := Traverse(g.spawnPoints, false);
  }

  /** The loop shared by `RegisterAll` and `UnregisterAll`: null entries are skipped. */
  method Traverse(s: seq<Option<SpawnPointId>>, register: bool) returns (calls: seq<SpawnPointCall>)
    ensures calls == Visit(Present(s), register)
  {
    calls := [];
    var i := 0;
    while i < |s|
      invariant 0 <= i <= |s|
      invariant calls == Visit(Present(s[..i]), register)
    {
      assert s[..i + 1] == s[..i] + [s[i]];
      PresentAppend(s[..i], [s[i]]);
      if s[i].Some? {
        calls := calls + [if register then Register(s[i].value) else Unregister(s[i].value)];
      }
      i := i + 1;
    }
    assert s[..|s|] == s;
  }

  /** `Awake`: registers the spawn points only when the group is set to register on awake. */
  function AwakeCalls(g: Group): (r: seq<SpawnPointCall>)
    ensures g.registerOnAwake ==> r == Visit(Present(g.spawnPoints), true)
    ensures !g.registerOnAwake ==> r == []
  {
    if g.registerOnAwake then Visit(Present(g.spawnPoints), true) else []
  }

  /** `OnEnable`: the same guard and the same traversal as `Awake`. */
  function OnEnableCalls(g: Group): (r: seq<SpawnPointCall>)
    ensures g.registerOnAwake ==> r == Visit(Present(g.spawnPoints), true)
    ensures !g.registerOnAwake ==> r == []
  {
    if g.registerOnAwake then Visit(Present(g.spawnPoints), true) else []
  }

  /** An object that starts enabled runs `Awake` and then `OnEnable`. */
  function StartUpCalls(g: Group): (r: seq<SpawnPointCall>)
    ensures !g.registerOnAwake ==> r == []
    ensures g.registerOnAwake ==> |r| == 2 * |Present(g.spawnPoints)|
    ensures g.registerOnAwake ==> r == Visit(Present(g.spawnPoints), true) + Visit(Present(g.spawnPoints), true)
  {
    AwakeCalls(g) + OnEnableCalls(g)
  }

  /** `OnDisable`: always unregister. */
  function OnDisableCalls(g: Group): (r: seq<SpawnPointCall>)
    ensures r == Visit(Present(g.spawnPoints), false)
  {
    Visit(Present(g.spawnPoints), false)
  }

  /** Validating a validated group changes nothing. */
  method OnValidateIdempotent(g: Group) returns (once: Group, twice: Group)
    ensures twice == once
  {
    once := OnValidate(g);
    twice := OnValidate(once);
  }

  /** Validation does not change which spawn points a traversal visits, nor their order. */
  method OnValidateKeepsTraversal(g: Group) returns (before: seq<SpawnPointCall>, after: seq<SpawnPointCall>)
    ensures before == after
    ensures before == Visit(Present(g.spawnPoints), true)
  {
    before := RegisterAll(g);
    var v := OnValidate(g);
    after := RegisterAll(v);
  }

  /** A spawn point is registered exactly when it is a non-null entry of the array. */
  lemma RegisteredExactlyThePresent(g: Group, p: SpawnPointId)
    ensures Register(p) in Visit(Present(g.spawnPoints), true) <==> Some(p) in g.spawnPoints
  {
    PresentMembership(g.spawnPoints, p);
    var v := Visit(Present(g.spawnPoints), true);
    if Register(p) in v {
      var i :| 0 <= i < |v| && v[i] == Register(p);
      assert Present(g.spawnPoints)[i] == p;
    }
    if p in Present(g.spawnPoints) {
      var i :| 0 <= i < |Present(g.spawnPoints)| && Present(g.spawnPoints)[i] == p;
      assert v[i] == Register(p);
    }
  }

  /**
   * Starting up enabled registers every spawn point twice: the traversal of
   * `Awake` followed by the identical traversal of `OnEnable`.
   */
  lemma StartUpRegistersTwice(g: Group)
    requires g.registerOnAwake
    ensures StartUpCalls(g) == Visit(Present(g.spawnPoints), true) + Visit(Present(g.spawnPoints), true)
    ensures forall p: SpawnPointId :: Register(p) in StartUpCalls(g) <==> Some(p) in g.spawnPoints
  {
    forall p: SpawnPointId ensures Register(p) in StartUpCalls(g) <==> Some(p) in g.spawnPoints {
      RegisteredExactlyThePresent(g, p);
    }
  }

  /** Without register-on-awake nothing registers at start-up, while `OnDisable` still unregisters. */
  lemma NoRegisterOnAwakeOnlyUnregisters(g: Group)
    requires !g.registerOnAwake
    ensures StartUpCalls(g) == []
    ensures |OnDisableCalls(g)| == |Present(g.spawnPoints)|
  {
  }

  /**
   * After start-up, each disable/enable cycle unregisters and then re-registers
   * the same spawn points, in the same order; start-up itself registers one
   * traversal more than a single disable removes.
   */
  lemma DisableMirrorsEnable(g: Group)
    requires g.registerOnAwake
    ensures |OnDisableCalls(g)| == |OnEnableCalls(g)|
    ensures forall i :: 0 <= i < |OnEnableCalls(g)| ==> OnDisableCalls(g)[i] == Unregister(OnEnableCalls(g)[i].point)
    ensures |StartUpCalls(g)| == |OnDisableCalls(g)| + |OnEnableCalls(g)|
  {
  }

  /**
   * The declared defaults survive validation: the group registers on awake
   * but has no spawn points, so it makes no call at start-up or on disable.
   */
  method DefaultGroupValidated() returns (v: Group)
    ensures v == DefaultGroup
    ensures v.registerOnAwake && StartUpCalls(v) == [] && OnDisableCalls(v) == []
  {
    v := OnValidate(DefaultGroup);
  }
}

=== FILE: pool_manager.dfy ===
/**
 * The pool manager: a settings asset plus one static scene pool handler that
 * every pooling request is routed to. Handlers and pooled objects are
 * identified by number; instantiating a handler, creating pools, returning and
 * destroying objects, and error logging are events in an output trace.
 */
module PoolManager {
  import opened Options
  import opened Numerics

  type HandlerId = nat
  type ObjectId = nat

  /** One pool to set up: the prototype object and how many instances to allocate. */
  datatype PoolInfo = PoolInfo(prototype: ObjectId, count: int)

  /** A collection asset listing pools to set up together. */
  datatype PooledObjectCollection = PooledObjectCollection(pooledObjects: seq<PoolInfo>)

  /** The serialized settings of the manager asset. */
  datatype Settings = Settings(
    hasScenePoolHandlerPrefab: bool,
    defaultRuntimePoolSize: int,
    poolIncrement: int,
    collections: seq<Option<PooledObjectCollection>>,
    sharedPools: seq<PoolInfo>)

  /** The field initialisers of the settings. */
  const DefaultSettings: Settings := Settings(false, 100, 20, [], [])

  /** What `defaultPoolSize` and `poolIncrement` report when no handler can be used. */
  const FallbackPoolSize: int := 100
  const FallbackPoolIncrement: int := 20

  /** The loaded manager instance, if any, and the current scene pool handler, if any. */
  datatype Manager = Manager(instance: Option<Settings>, current: Option<HandlerId>)

  datatype Event =
    | LogError
    | InstantiateHandler(handler: HandlerId, viaSaveSystem: bool)
    | CreatePools(handler: HandlerId, pools: seq<PoolInfo>)
    | CreatePool(handler: HandlerId, prototype: ObjectId, count: int)
    | GetPooledObject(handler: HandlerId, prototype: ObjectId, activate: bool)
    | HandlerReturn(handler: HandlerId, obj: ObjectId)
    | HandlerReturnDelayed(handler: HandlerId, obj: ObjectId, delay: real)
    | Destroy(obj: ObjectId)
    | DestroyDelayed(obj: ObjectId, delay: real)

  /** The manager after an operation and the events it emitted. */
  datatype Step = Step(manager: Manager, events: seq<Event>)

  /** The value an operation returns, with the manager after it and the events it emitted. */
  datatype Outcome<T> = Outcome(value: T, manager: Manager, events: seq<Event>)

  // ---------------------------------------------------------------------------
  // Settings validation

  /** Raises every pool count below one to one. */
  function AtLeastOneEach(pools: seq<PoolInfo>): (r: seq<PoolInfo>)
    ensures |r| == |pools|
    ensures forall i :: 0 <= i < |pools| ==>
      && r[i].prototype == pools[i].prototype
      && r[i].count >= 1
      && (pools[i].count >= 1 ==> r[i].count == pools[i].count)
      && (pools[i].count < 1 ==> r[i].count == 1)
  {
    if pools == [] then []
    else
      var head := if pools[0].count < 1 then pools[0].(count := 1) else pools[0];
      [head] + AtLeastOneEach(pools[1..])
  }

  /** The settings as validation leaves them. */
  predicate Validated(s: Settings) {
    && s.defaultRuntimePoolSize >= 1
    && 1 <= s.poolIncrement <= s.defaultRuntimePoolSize
    && forall i :: 0 <= i < |s.sharedPools| ==> s.sharedPools[i].count >= 1
  }

  /** Editor validation: pool size at least one, increment within [1, pool size], every shared count at least one. */
  function OnValidate(s: Settings): (r: Settings)
    ensures Validated(r)
    ensures s.defaultRuntimePoolSize >= 1 ==> r.defaultRuntimePoolSize == s.defaultRuntimePoolSize
    ensures s.defaultRuntimePoolSize < 1 ==> r.defaultRuntimePoolSize == 1
    ensures 1 <= s.poolIncrement <= r.defaultRuntimePoolSize ==> r.poolIncrement == s.poolIncrement
    ensures s.poolIncrement < 1 ==> r.poolIncrement == 1
    ensures s.poolIncrement > r.defaultRuntimePoolSize ==> r.poolIncrement == r.defaultRuntimePoolSize
    ensures |r.sharedPools| == |s.sharedPools|
    ensures forall i :: 0 <= i < |s.sharedPools| ==>
      r.sharedPools[i].prototype == s.sharedPools[i].prototype
      && (s.sharedPools[i].count >= 1 ==> r.sharedPools[i].count == s.sharedPools[i].count)
      && (s.sharedPools[i].count < 1 ==> r.sharedPools[i].count == 1)
    ensures r.collections == s.collections && r.hasScenePoolHandlerPrefab == s.hasScenePoolHandlerPrefab
  {
    var size := if s.defaultRuntimePoolSize < 1 then 1 else s.defaultRuntimePoolSize;
    s.(defaultRuntimePoolSize := size,
       poolIncrement := ClampInt(s.poolIncrement, 1, size),
       sharedPools := AtLeastOneEach(s.sharedPools))
  }

  /** The manager is usable only when it knows a handler prefab to instantiate. */
  function IsValid(s: Settings): (r: bool)
    ensures r <==> s.hasScenePoolHandlerPrefab
  {
    s.hasScenePoolHandlerPrefab
  }

  // ---------------------------------------------------------------------------
  // The scene pool handler

  /** The pools a newly accepted handler creates: the shared pools, then each non-null collection in order. */
  function PoolCreationEvents(h: HandlerId, s: Settings): (r: seq<Event>)
    ensures |r| == 1 + |Present(s.collections)|
    ensures r[0] == CreatePools(h, s.sharedPools)
    ensures forall i :: 0 <= i < |Present(s.collections)| ==>
      r[1 + i] == CreatePools(h, Present(s.collections)[i].pooledObjects)
  {
    var kept := Present(s.collections);
    [CreatePools(h, s.sharedPools)] + seq(|kept|, i requires 0 <= i < |kept| => CreatePools(h, kept[i].pooledObjects))
  }

  /**
   * Sets the current handler. Without a manager instance nothing happens; a
   * different non-null handler while one is set is refused with an error;
   * otherwise the argument (possibly null) becomes current and a non-null
   * handler creates its pools.
   */
  function SetCurrentScenePoolInfo(m: Manager, to: Option<HandlerId>): (r: Step)
    ensures r.manager.instance == m.instance
    ensures m.instance.None? ==> r == Step(m, [])
    ensures m.instance.Some? && m.current.Some? && to.Some? && to != m.current ==> r == Step(m, [LogError])
    ensures m.instance.Some? && (m.current.None? || to.None? || to == m.current) ==>
      && r.manager.current == to
      && r.events == (if to.Some? then PoolCreationEvents(to.value, m.instance.value) else [])
  {
    if m.instance.None? then Step(m, [])
    else if m.current.Some? && to.Some? && to != m.current then Step(m, [LogError])
    else Step(m.(current := to), if to.Some? then PoolCreationEvents(to.value, m.instance.value) else [])
  }

  /**
   * Makes sure a handler exists: reports false without an instance, or with
   * no handler and no prefab (logging an error); otherwise instantiates one
   * from the prefab if needed, whose initialisation makes it current, and
   * reports true. `spawned` names the instantiated handler and `viaSaveSystem`
   * says whether a save-aware scene instantiates it.
   */
  function CheckScenePoolHandler(m: Manager, spawned: HandlerId, viaSaveSystem: bool): (r: Outcome<bool>)
    ensures r.manager.instance == m.instance
    ensures r.value <==> m.instance.Some? && (m.current.Some? || m.instance.value.hasScenePoolHandlerPrefab)
    ensures r.value ==> r.manager.current.Some?
    ensures m.current.Some? ==> r.manager == m && r.events == []
    ensures !r.value ==> r.manager == m
    ensures m.instance.None? ==> r == Outcome(false, m, [])
    ensures m.instance.Some? && m.current.None? && !m.instance.value.hasScenePoolHandlerPrefab ==>
      r == Outcome(false, m, [LogError])
    ensures r.value && m.current.None? ==>
      r.manager.current == Some(spawned)
      && r.events == [InstantiateHandler(spawned, viaSaveSystem)] + PoolCreationEvents(spawned, m.instance.value)
  {
    if m.instance.None? then Outcome(false, m, [])
    else if m.current.Some? then Outcome(true, m, [])
    else if !m.instance.value.hasScenePoolHandlerPrefab then Outcome(false, m, [LogError])
    else
      var initialised := SetCurrentScenePoolInfo(m, Some(spawned));
      Outcome(true, initialised.manager, [InstantiateHandler(spawned, viaSaveSystem)] + initialised.events)
  }

  /** The size of pools added at runtime: the configured size when a handler is usable, 100 otherwise. */
  function DefaultPoolSize(m: Manager, spawned: HandlerId, viaSaveSystem: bool): (r: Outcome<int>)
    ensures var check := CheckScenePoolHandler(m, spawned, viaSaveSystem);
      && r.manager == check.manager && r.events == check.events
      && (check.value ==> r.value == m.instance.value.defaultRuntimePoolSize)
      && (!check.value ==> r.value == FallbackPoolSize)
    ensures m.instance.None? ==> r == Outcome(FallbackPoolSize, m, [])
    ensures m.instance.Some? && m.current.Some? ==> r == Outcome(m.instance.value.defaultRuntimePoolSize, m, [])
    ensures m.instance.Some? && m.current.None? && m.instance.value.hasScenePoolHandlerPrefab ==>
      && r.value == m.instance.value.defaultRuntimePoolSize
      && r.manager.current == Some(spawned)
      && r.events == [InstantiateHandler(spawned, viaSaveSystem)] + PoolCreationEvents(spawned, m.instance.value)
    ensures m.instance.Some? && m.current.None? && !m.instance.value.hasScenePoolHandlerPrefab ==>
      r == Outcome(FallbackPoolSize, m, [LogError])
  {
    var check := CheckScenePoolHandler(m, spawned, viaSaveSystem);
    Outcome(if check.value then m.instance.value.defaultRuntimePoolSize else FallbackPoolSize, check.manager, check.events)
  }

  /** The per-frame allocation count: the configured increment when a handler is usable, 20 otherwise. */
  function PoolIncrement(m: Manager, spawned: HandlerId, viaSaveSystem: bool): (r: Outcome<int>)
    ensures var check := CheckScenePoolHandler(m, spawned, viaSaveSystem);
      && r.manager == check.manager && r.events == check.events
      && (check.value ==> r.value == m.instance.value.poolIncrement)
      && (!check.value ==> r.value == FallbackPoolIncrement)
    ensures m.instance.None? ==> r == Outcome(FallbackPoolIncrement, m, [])
    ensures m.instance.Some? && m.current.Some? ==> r == Outcome(m.instance.value.poolIncrement, m, [])
    ensures m.instance.Some? && m.current.None? && m.instance.value.hasScenePoolHandlerPrefab ==>
      && r.value == m.instance.value.poolIncrement
      && r.manager.current == Some(spawned)
      && r.events == [InstantiateHandler(spawned, viaSaveSystem)] + PoolCreationEvents(spawned, m.instance.value)
    ensures m.instance.Some? && m.current.None? && !m.instance.value.hasScenePoolHandlerPrefab ==>
      r == Outcome(FallbackPoolIncrement, m, [LogError])
  {
    var check := CheckScenePoolHandler(m, spawned, viaSaveSystem);
    Outcome(if check.value then m.instance.value.poolIncrement else FallbackPoolIncrement, check.manager, check.events)
  }

  // ---------------------------------------------------------------------------
  // Requests routed to the handler

  /** Creates a pool of the default runtime size, if a handler is usable. */
  function CreatePoolDefault(m: Manager, prototype: ObjectId, spawned: HandlerId, viaSaveSystem: bool): (r: Step)
    ensures var check := CheckScenePoolHandler(m, spawned, viaSaveSystem);
      && r.manager == check.manager
      && (check.value ==>
            r.events == check.events + [CreatePool(check.manager.current.value, prototype, m.instance.value.defaultRuntimePoolSize)])
      && (!check.value ==> r.events == check.events)
  {
    var check := CheckScenePoolHandler(m, spawned, viaSaveSystem);
    if check.value then
      Step(check.manager, check.events + [CreatePool(check.manager.current.value, prototype, m.instance.value.defaultRuntimePoolSize)])
    else Step(check.manager, check.events)
  }

  /** Creates a pool of the given size, if a handler is usable. */
  function CreatePoolWithCount(m: Manager, prototype: ObjectId, count: int, spawned: HandlerId, viaSaveSystem: bool): (r: Step)
    ensures var check := CheckScenePoolHandler(m, spawned, viaSaveSystem);
      && r.manager == check.manager
      && (check.value ==> r.events == check.events + [CreatePool(check.manager.current.value, prototype, count)])
      && (!check.value ==> r.events == check.events)
  {
    var check := CheckScenePoolHandler(m, spawned, viaSaveSystem);
    if check.value then Step(check.manager, check.events + [CreatePool(check.manager.current.value, prototype, count)])
    else Step(check.manager, check.events)
  }

  /** Asks the handler for a pooled object; the result says whether one was asked (null is returned otherwise). */
  function RequestPooledObject(m: Manager, prototype: ObjectId, activate: bool, spawned: HandlerId, viaSaveSystem: bool): (r: Outcome<bool>)
    ensures r.value <==> CheckScenePoolHandler(m, spawned, viaSaveSystem).value
    ensures r.manager == CheckScenePoolHandler(m, spawned, viaSaveSystem).manager
    ensures r.value ==>
      r.events == CheckScenePoolHandler(m, spawned, viaSaveSystem).events + [GetPooledObject(r.manager.current.value, prototype, activate)]
    ensures !r.value ==> r.events == CheckScenePoolHandler(m, spawned, viaSaveSystem).events
  {
    var check := CheckScenePoolHandler(m, spawned, viaSaveSystem);
    if check.value then Outcome(true, check.manager, check.events + [GetPooledObject(check.manager.current.value, prototype, activate)])
    else Outcome(false, check.manager, check.events)
  }

  /** Hands an object back to the current handler, or destroys it; never creates a handler. */
  function ReturnObjectToPool(m: Manager, obj: ObjectId): (r: Step)
    ensures r.manager == m
    ensures m.current.Some? ==> r.events == [HandlerReturn(m.current.value, obj)]
    ensures m.current.None? ==> r.events == [Destroy(obj)]
  {
    match m.current
    case Some(h) => Step(m, [HandlerReturn(h, obj)])
    case None => Step(m, [Destroy(obj)])
  }

  /** The delayed form of `ReturnObjectToPool`. */
  function ReturnObjectDelayed(m: Manager, obj: ObjectId, delay: real): (r: Step)
    ensures r.manager == m
    ensures m.current.Some? ==> r.events == [HandlerReturnDelayed(m.current.value, obj, delay)]
    ensures m.current.None? ==> r.events == [DestroyDelayed(obj, delay)]
  {
    match m.current
    case Some(h) => Step(m, [HandlerReturnDelayed(h, obj, delay)])
    case None => Step(m, [DestroyDelayed(obj, delay)])
  }

  // ---------------------------------------------------------------------------
  // Properties

  /** Counts that are already at least one are left alone. */
  lemma {:induction false} AtLeastOneEachKeepsValid(pools: seq<PoolInfo>)
    requires forall i :: 0 <= i < |pools| ==> pools[i].count >= 1
    ensures AtLeastOneEach(pools) == pools
  {
    if pools != [] {
      AtLeastOneEachKeepsValid(pools[1..]);
      assert pools == [pools[0]] + pools[1..];
    }
  }

  /** Validated settings are a fixed point of validation, so validating twice changes nothing more. */
  lemma OnValidateIdempotent(s: Settings)
    ensures Validated(s) ==> OnValidate(s) == s
    ensures OnValidate(OnValidate(s)) == OnValidate(s)
  {
    if Validated(s) {
      AtLeastOneEachKeepsValid(s.sharedPools);
    }
    AtLeastOneEachKeepsValid(OnValidate(s).sharedPools);
  }

  /** A usable handler reports the configured sizes; validated settings keep them positive and the increment within the pool size. */
  lemma ConfiguredSizesAfterValidation(m: Manager, spawned: HandlerId, viaSaveSystem: bool)
    requires m.instance.Some? && m.current.Some?
    requires Validated(m.instance.value)
    ensures 1 <= PoolIncrement(m, spawned, viaSaveSystem).value <= DefaultPoolSize(m, spawned, viaSaveSystem).value
  {
  }

  /** Whatever the state, the reported increment is positive and the reported pool size too, when the settings are validated. */
  lemma ReportedSizesPositive(m: Manager, spawned: HandlerId, viaSaveSystem: bool)
    requires m.instance.Some? ==> Validated(m.instance.value)
    ensures DefaultPoolSize(m, spawned, viaSaveSystem).value >= 1
    ensures PoolIncrement(m, spawned, viaSaveSystem).value >= 1
  {
  }

  /** Offers a sequence of handlers to `SetCurrentScenePoolInfo` in turn, collecting the events. */
  function OfferAll(m: Manager, handlers: seq<HandlerId>): (r: Step)
    ensures r.manager.instance == m.instance
    decreases |handlers|
  {
    if handlers == [] then Step(m, [])
    else
      var first := SetCurrentScenePoolInfo(m, Some(handlers[0]));
      var rest := OfferAll(first.manager, handlers[1..]);
      Step(rest.manager, first.events + rest.events)
  }

  /** Once a handler is current, offering other non-null handlers never replaces it, and each differing offer logs an error. */
  lemma {:induction false} SingleHandlerGuard(m: Manager, handlers: seq<HandlerId>)
    requires m.instance.Some? && m.current.Some?
    requires forall i :: 0 <= i < |handlers| ==> handlers[i] != m.current.value
    ensures OfferAll(m, handlers).manager == m
    ensures OfferAll(m, handlers).events == seq(|handlers|, _ => LogError)
  {
    if handlers != [] {
      SingleHandlerGuard(m, handlers[1..]);
      assert seq(|handlers|, _ => LogError) == [LogError] + seq(|handlers| - 1, _ => LogError);
    }
  }

  /** Clearing the handler lets the next one in, which then creates its pools. */
  lemma ClearThenReplace(m: Manager, h: HandlerId)
    requires m.instance.Some?
    ensures var cleared := SetCurrentScenePoolInfo(m, None);
      && cleared.manager.current.None? && cleared.events == []
      && SetCurrentScenePoolInfo(cleared.manager, Some(h)).manager.current == Some(h)
      && SetCurrentScenePoolInfo(cleared.manager, Some(h)).events == PoolCreationEvents(h, m.instance.value)
  {
  }

  /**
   * The engine's destruction of the current handler (with its scene, say).
   * Engine objects compare equal to null once destroyed, so every later test
   * of the static field sees no handler.
   */
  function HandlerDestroyed(m: Manager): (r: Manager)
    ensures r.instance == m.instance && r.current.None?
  {
    m.(current := None)
  }

  /**
   * Once the current handler is destroyed, a different handler is accepted
   * without an error and creates its pools, returned objects are destroyed
   * rather than routed, and a check instantiates a new handler from the prefab.
   */
  lemma DestroyedHandlerIsReplaced(m: Manager, h: HandlerId, obj: ObjectId, spawned: HandlerId, viaSaveSystem: bool)
    requires m.instance.Some?
    ensures var gone := HandlerDestroyed(m);
      && SetCurrentScenePoolInfo(gone, Some(h)).manager.current == Some(h)
      && SetCurrentScenePoolInfo(gone, Some(h)).events == PoolCreationEvents(h, m.instance.value)
      && ReturnObjectToPool(gone, obj).events == [Destroy(obj)]
    ensures m.instance.value.hasScenePoolHandlerPrefab ==>
      var check := CheckScenePoolHandler(HandlerDestroyed(m), spawned, viaSaveSystem);
      && check.value && check.manager.current == Some(spawned)
      && check.events == [InstantiateHandler(spawned, viaSaveSystem)] + PoolCreationEvents(spawned, m.instance.value)
  {
  }

  /** A successful check leaves a handler in place, so checking again does nothing. */
  lemma CheckScenePoolHandlerSettles(m: Manager, spawned: HandlerId, other: HandlerId, viaSaveSystem: bool)
    requires CheckScenePoolHandler(m, spawned, viaSaveSystem).value
    ensures var after := CheckScenePoolHandler(m, spawned, viaSaveSystem).manager;
      CheckScenePoolHandler(after, other, viaSaveSystem) == Outcome(true, after, [])
  {
  }

  /** With a loaded manager but no handler yet, a request can be served exactly when the settings are valid. */
  lemma ValidSettingsServeRequests(m: Manager, spawned: HandlerId, viaSaveSystem: bool)
    requires m.instance.Some? && m.current.None?
    ensures CheckScenePoolHandler(m, spawned, viaSaveSystem).value <==> IsValid(m.instance.value)
    ensures !IsValid(m.instance.value) ==> CheckScenePoolHandler(m, spawned, viaSaveSystem).events == [LogError]
  {
  }

  /** Returning an object never instantiates a handler: without one the object is destroyed. */
  lemma ReturnNeverInstantiates(m: Manager, obj: ObjectId, delay: real)
    ensures forall e :: e in ReturnObjectToPool(m, obj).events ==> !e.InstantiateHandler?
    ensures forall e :: e in ReturnObjectDelayed(m, obj, delay).events ==> !e.InstantiateHandler?
    ensures m.current.None? ==> ReturnObjectToPool(m, obj).events == [Destroy(obj)]
  {
  }

  /** A null collection adds no pool creation; a non-null one adds exactly its own, after the earlier ones. */
  lemma {:induction false} AppendCollection(h: HandlerId, s: Settings, c: Option<PooledObjectCollection>)
    ensures c.None? ==> PoolCreationEvents(h, s.(collections := s.collections + [c])) == PoolCreationEvents(h, s)
    ensures c.Some? ==>
      PoolCreationEvents(h, s.(collections := s.collections + [c])) == PoolCreationEvents(h, s) + [CreatePools(h, c.value.pooledObjects)]
  {
    PresentAppend(s.collections, [c]);
    assert Present([c]) == (if c.Some? then [c.value] else []) + Present([c][1..]);
    assert Present([c][1..]) == [];
  }

  /**
   * The declared defaults are already validated (a fixed point of
   * `OnValidate`), and they match the fallback sizes. No handler prefab is
   * assigned by default, so the defaults are not valid in the sense of
   * `IsValid`: a manager with them and no handler logs an error and reports
   * the fallback size.
   */
  lemma DefaultSettingsBehaviour(spawned: HandlerId, viaSaveSystem: bool)
    ensures OnValidate(DefaultSettings) == DefaultSettings
    ensures DefaultSettings.defaultRuntimePoolSize == FallbackPoolSize
    ensures DefaultSettings.poolIncrement == FallbackPoolIncrement
    ensures !IsValid(DefaultSettings)
    ensures var m := Manager(Some(DefaultSettings), None);
      DefaultPoolSize(m, spawned, viaSaveSystem) == Outcome(FallbackPoolSize, m, [LogError])
  {
  }
}

=== FILE: temporary_pooled_object.dfy ===
/**
 * A pooled object that returns itself to its pool once it has been active for
 * longer than its lifetime. The frame time is a parameter of each update.
 */
module TemporaryPooledObject {

  /** The serialized lifetime and the time elapsed since the object was last enabled. */
  datatype Timer = Timer(lifetime: real, elapsed: real)

  /** The field initialisers. */
  const DefaultTimer: Timer := Timer(5.0, 0.0)

  /** The timer after one update and whether that update asked to return the object to its pool. */
  datatype Tick = Tick(timer: Timer, returnToPool: bool)

  /** Editor validation: a negative lifetime becomes zero. */
  function OnValidate(t: Timer): (r: Timer)
    ensures r.lifetime >= 0.0
    ensures t.lifetime >= 0.0 ==> r == t
    ensures t.lifetime < 0.0 ==> r.lifetime == 0.0
    ensures r.elapsed == t.elapsed
  {
    if t.lifetime < 0.0 then t.(lifetime := 0.0) else t
  }

  /** Enabling restarts the clock. */
  function OnEnable(t: Timer): (r: Timer)
    ensures r.elapsed == 0.0 && r.lifetime == t.lifetime
  {
    t.(elapsed := 0.0)
  }

  /** One frame: the elapsed time grows by the frame time, and a return is requested once it exceeds the lifetime. */
  function Update(t: Timer, deltaTime: real): (r: Tick)
    ensures r.timer.lifetime == t.lifetime
    ensures r.timer.elapsed - t.elapsed == deltaTime
    ensures r.returnToPool <==> t.elapsed + deltaTime > t.lifetime
  {
    var elapsed := t.elapsed + deltaTime;
    Tick(t.(elapsed := elapsed), elapsed > t.lifetime)
  }

  function Sum(ds: seq<real>): real {
    if ds == [] then 0.0 else ds[0] + Sum(ds[1..])
  }

  /** Runs one update per frame time and returns the final timer and, per frame, whether a return was requested. */
  function Run(t: Timer, frames: seq<real>): (r: (Timer, seq<bool>))
    ensures |r.1| == |frames|
    ensures r.0.lifetime == t.lifetime
    decreases |frames|
  {
    if frames == [] then (t, [])
    else
      var first := Update(t, frames[0]);
      var rest := Run(first.timer, frames[1..]);
      (rest.0, [first.returnToPool] + rest.1)
  }

  /** Over several frames the elapsed time grows by the total frame time. */
  lemma {:induction false} RunAccumulates(t: Timer, frames: seq<real>)
    ensures Run(t, frames).0.elapsed == t.elapsed + Sum(frames)
    decreases |frames|
  {
    if frames != [] {
      RunAccumulates(Update(t, frames[0]).timer, frames[1..]);
    }
  }

  /** The elapsed time before frame `i` of a run. */
  function ElapsedBefore(t: Timer, frames: seq<real>, i: nat): real
    requires i <= |frames|
  {
    t.elapsed + Sum(frames[..i])
  }

  /** Frame `i` of a run requests a return exactly when the elapsed time after it exceeds the lifetime. */
  lemma {:induction false} RunRequestsWhenExpired(t: Timer, frames: seq<real>, i: nat)
    requires i < |frames|
    ensures Run(t, frames).1[i] <==> ElapsedBefore(t, frames, i + 1) > t.lifetime
    decreases i
  {
    var first := Update(t, frames[0]);
    assert frames[..1] == [frames[0]];
    assert Sum(frames[..1]) == frames[0] + Sum(frames[..1][1..]);
    if i > 0 {
      RunRequestsWhenExpired(first.timer, frames[1..], i - 1);
      assert frames[1..][..i] == frames[..i + 1][1..];
      assert Sum(frames[..i + 1]) == frames[0] + Sum(frames[..i + 1][1..]);
    }
  }

  /**
   * With non-negative frame times, once a return is requested every later frame
   * requests it too. In the engine the first request hands the object back to
   * its pool (which deactivates it) or destroys it, so it runs no further
   * frames; the later frames here describe an object that stayed active.
   */
  lemma {:induction false} RequestsPersist(t: Timer, frames: seq<real>, i: nat, j: nat)
    requires i <= j < |frames|
    requires forall k :: 0 <= k < |frames| ==> frames[k] >= 0.0
    requires Run(t, frames).1[i]
    ensures Run(t, frames).1[j]
  {
    RunRequestsWhenExpired(t, frames, i);
    RunRequestsWhenExpired(t, frames, j);
    SumMonotone(frames, i + 1, j + 1);
  }

  /** Prefix sums of non-negative values do not decrease. */
  lemma {:induction false} SumMonotone(frames: seq<real>, a: nat, b: nat)
    requires a <= b <= |frames|
    requires forall k :: 0 <= k < |frames| ==> frames[k] >= 0.0
    ensures Sum(frames[..a]) <= Sum(frames[..b])
  {
    if a < b {
      SumMonotone(frames, a, b - 1);
      SumAppend(frames[..b - 1], [frames[b - 1]]);
      assert frames[..b] == frames[..b - 1] + [frames[b - 1]];
      assert Sum([frames[b - 1]]) == frames[b - 1] + Sum([frames[b - 1]][1..]);
    }
  }

  lemma {:induction false} SumAppend(a: seq<real>, b: seq<real>)
    ensures Sum(a + b) == Sum(a) + Sum(b)
  {
    if a == [] {
      assert a + b == b;
    } else {
      assert (a + b)[1..] == a[1..] + b;
      SumAppend(a[1..], b);
    }
  }

  /** With a zero lifetime, any positive frame time requests a return on the first update after enabling. */
  lemma ZeroLifetimeExpiresImmediately(t: Timer, deltaTime: real)
    requires t.lifetime == 0.0 && deltaTime > 0.0
    ensures Update(OnEnable(t), deltaTime).returnToPool
  {
  }

  /** A freshly enabled object is kept while the frames so far add up to at most its lifetime. */
  lemma KeptWithinLifetime(t: Timer, frames: seq<real>, i: nat)
    requires i < |frames|
    requires Sum(frames[..i + 1]) <= t.lifetime
    ensures !Run(OnEnable(t), frames).1[i]
  {
    RunRequestsWhenExpired(OnEnable(t), frames, i);
  }

  /**
   * The declared lifetime of 5 survives validation, and a freshly enabled
   * object with it requests a return on frame `i` exactly when the frames so
   * far add up to more than 5.
   */
  lemma {:induction false} DefaultTimerLifetime(frames: seq<real>, i: nat)
    requires i < |frames|
    ensures OnValidate(DefaultTimer) == DefaultTimer
    ensures Run(OnEnable(DefaultTimer), frames).1[i] <==> Sum(frames[..i + 1]) > 5.0
  {
    RunRequestsWhenExpired(OnEnable(DefaultTimer), frames, i);
  }
}

=== FILE: trigger_zone.dfy ===
/**
 * A trigger zone that keeps a list of the solo characters inside it and fires
 * enter, exit and stay events for them. Only colliders tagged "Player" with a
 * character in their parent hierarchy count. Each listener may be null, in
 * which case the corresponding event is not fired.
 */
module TriggerZone {
  import opened Options

  type CharacterId = nat

  const PlayerTag: string := "Player"

  /** What the zone can learn from a collider: its tag and the character found in its parents, if any. */
  datatype Collider = Collider(tag: string, character: Option<CharacterId>)

  /** Which of the three serialized events are present (non-null). */
  datatype Listeners = Listeners(onEnter: bool, onExit: bool, onStay: bool)

  datatype Zone = Zone(listeners: Listeners, characters: seq<CharacterId>)

  datatype ZoneEvent = Entered(c: CharacterId) | Exited(c: CharacterId) | Stayed(c: CharacterId)

  datatype Step = Step(zone: Zone, events: seq<ZoneEvent>)

  /** The character a collider stands for, when it counts at all. */
  function CharacterOf(other: Collider): (r: Option<CharacterId>)
    ensures r.Some? <==> other.tag == PlayerTag && other.character.Some?
    ensures r.Some? ==> r == other.character
  {
    if other.tag == PlayerTag then other.character else None
  }

  /** The list without its first occurrence of `c`; unchanged when `c` is absent. */
  function RemoveFirst(s: seq<CharacterId>, c: CharacterId): (r: seq<CharacterId>)
    ensures c !in s ==> r == s
    ensures c in s ==> |r| == |s| - 1
  {
    if s == [] then []
    else if s[0] == c then s[1..]
    else [s[0]] + RemoveFirst(s[1..], c)
  }

  /** The first position of `c` in `s`. */
  function IndexOf(s: seq<CharacterId>, c: CharacterId): (i: nat)
    requires c in s
    ensures i < |s| && s[i] == c
    ensures forall j :: 0 <= j < i ==> s[j] != c
  {
    if s[0] == c then 0 else 1 + IndexOf(s[1..], c)
  }

  /** Removing the first occurrence cuts the list around it and takes exactly one `c` out of the multiset. */
  lemma {:induction false} RemoveFirstSplits(s: seq<CharacterId>, c: CharacterId)
    requires c in s
    ensures RemoveFirst(s, c) == s[..IndexOf(s, c)] + s[IndexOf(s, c) + 1..]
    ensures multiset(RemoveFirst(s, c)) == multiset(s) - multiset{c}
  {
    RemoveFirstCuts(s, c);
    var k := IndexOf(s, c);
    assert s == s[..k] + [c] + s[k + 1..];
  }

  lemma {:induction false} RemoveFirstCuts(s: seq<CharacterId>, c: CharacterId)
    requires c in s
    ensures RemoveFirst(s, c) == s[..IndexOf(s, c)] + s[IndexOf(s, c) + 1..]
  {
    if s[0] != c {
      var t := s[1..];
      RemoveFirstCuts(t, c);
      var i := IndexOf(t, c);
      assert IndexOf(s, c) == i + 1;
      assert RemoveFirst(s, c) == [s[0]] + (t[..i] + t[i + 1..]);
      assert s[..i + 1] == [s[0]] + t[..i];
      assert s[i + 2..] == t[i + 1..];
    }
  }

  /** Removing a character that is not listed changes nothing. */
  lemma {:induction false} RemoveAbsent(s: seq<CharacterId>, c: CharacterId)
    requires c !in s
    ensures RemoveFirst(s, c) == s
  {
    if s != [] {
      assert s[0] != c;
      assert c !in s[1..];
      RemoveAbsent(s[1..], c);
      assert s == [s[0]] + s[1..];
    }
  }

  /** Whether or not `c` is listed, removal takes at most that one `c` out of the multiset. */
  lemma RemoveFirstMultiset(s: seq<CharacterId>, c: CharacterId)
    ensures multiset(RemoveFirst(s, c)) == multiset(s) - multiset{c}
    ensures c in s ==> RemoveFirst(s, c) == s[..IndexOf(s, c)] + s[IndexOf(s, c) + 1..]
    ensures c !in s ==> RemoveFirst(s, c) == s
  {
    if c in s {
      RemoveFirstSplits(s, c);
    } else {
      RemoveAbsent(s, c);
      assert multiset(s)[c] == 0;
    }
  }

  function FireIf(present: bool, e: ZoneEvent): (r: seq<ZoneEvent>)
    ensures present ==> r == [e]
    ensures !present ==> r == []
  {
    if present then [e] else []
  }

  /** A counted collider entering appends its character (duplicates allowed) and fires the enter event. */
  function OnTriggerEnter(z: Zone, other: Collider): (r: Step)
    ensures CharacterOf(other).None? ==> r == Step(z, [])
    ensures CharacterOf(other).Some? ==>
      var c := CharacterOf(other).value;
      r.zone == z.(characters := z.characters + [c])
      && r.events == FireIf(z.listeners.onEnter, Entered(c))
  {
    match CharacterOf(other)
    case None => Step(z, [])
    case Some(c) => Step(z.(characters := z.characters + [c]), FireIf(z.listeners.onEnter, Entered(c)))
  }

  /** A counted collider leaving drops the first occurrence of its character and fires the exit event whether or not it was listed. */
  function OnTriggerExit(z: Zone, other: Collider): (r: Step)
    ensures CharacterOf(other).None? ==> r == Step(z, [])
    ensures CharacterOf(other).Some? ==>
      var c := CharacterOf(other).value;
      r.zone.listeners == z.listeners
      && multiset(r.zone.characters) == multiset(z.characters) - multiset{c}
      && (c in z.characters ==>
            r.zone.characters == z.characters[..IndexOf(z.characters, c)] + z.characters[IndexOf(z.characters, c) + 1..])
      && (c !in z.characters ==> r.zone.characters == z.characters)
      && r.events == FireIf(z.listeners.onExit, Exited(c))
  {
    match CharacterOf(other)
    case None => Step(z, [])
    case Some(c) =>
      RemoveFirstMultiset(z.characters, c);
      Step(z.(characters := RemoveFirst(z.characters, c)), FireIf(z.listeners.onExit, Exited(c)))
  }

  /** A counted collider staying fires the stay event; the list is untouched. */
  function OnTriggerStay(z: Zone, other: Collider): (r: Step)
    ensures r.zone == z
    ensures CharacterOf(other).None? ==> r.events == []
    ensures CharacterOf(other).Some? ==> r.events == FireIf(z.listeners.onStay, Stayed(CharacterOf(other).value))
  {
    match CharacterOf(other)
    case None => Step(z, [])
    case Some(c) => Step(z, FireIf(z.listeners.onStay, Stayed(c)))
  }

  /** The exit events for a list of characters, in list order. */
  function ExitAll(present: bool, cs: seq<CharacterId>): (r: seq<ZoneEvent>)
    ensures present ==> |r| == |cs| && forall i :: 0 <= i < |cs| ==> r[i] == Exited(cs[i])
    ensures !present ==> r == []
  {
    if cs == [] then [] else FireIf(present, Exited(cs[0])) + ExitAll(present, cs[1..])
  }

  /** Disabling fires one exit per listed character, in list order, then empties the list. */
  function OnDisable(z: Zone): (r: Step)
    ensures r.zone == z.(characters := [])
    ensures z.listeners.onExit ==>
      |r.events| == |z.characters|
      && forall i :: 0 <= i < |z.characters| ==> r.events[i] == Exited(z.characters[i])
    ensures !z.listeners.onExit ==> r.events == []
  {
    Step(z.(characters := []), ExitAll(z.listeners.onExit, z.characters))
  }

  /** Colliders that do not count leave every handler without effect. */
  lemma IgnoredCollidersChangeNothing(z: Zone, other: Collider)
    requires other.tag != PlayerTag || other.character.None?
    ensures OnTriggerEnter(z, other) == Step(z, [])
    ensures OnTriggerExit(z, other) == Step(z, [])
    ensures OnTriggerStay(z, other) == Step(z, [])
  {
  }

  /** Entering and then leaving through the same collider restores the list as a multiset. */
  lemma EnterThenExitRestores(z: Zone, other: Collider)
    ensures var entered := OnTriggerEnter(z, other);
      multiset(OnTriggerExit(entered.zone, other).zone.characters) == multiset(z.characters)
  {
    if CharacterOf(other).Some? {
      var c := CharacterOf(other).value;
      assert multiset(z.characters + [c]) == multiset(z.characters) + multiset{c};
    }
  }

  /** Leaving through a character that never entered still fires the exit and keeps the list exactly. */
  lemma ExitOfAbsentCharacter(z: Zone, other: Collider)
    requires CharacterOf(other).Some? && CharacterOf(other).value !in z.characters
    ensures OnTriggerExit(z, other).zone == z
    ensures z.listeners.onExit ==> OnTriggerExit(z, other).events == [Exited(CharacterOf(other).value)]
  {
  }

  /** Exit events for a concatenated list are the exit events of each part in turn. */
  lemma {:induction false} ExitAllAppend(present: bool, a: seq<CharacterId>, b: seq<CharacterId>)
    ensures ExitAll(present, a + b) == ExitAll(present, a) + ExitAll(present, b)
  {
    if a != [] {
      assert (a + b)[1..] == a[1..] + b;
      ExitAllAppend(present, a[1..], b);
    } else {
      assert a + b == b;
    }
  }

  /** After one more character enters, disabling fires that character's exit last. */
  lemma DisableAfterEnter(z: Zone, other: Collider)
    requires CharacterOf(other).Some?
    ensures OnDisable(OnTriggerEnter(z, other).zone).events
      == OnDisable(z).events + FireIf(z.listeners.onExit, Exited(CharacterOf(other).value))
  {
    var c := CharacterOf(other).value;
    ExitAllAppend(z.listeners.onExit, z.characters, [c]);
    assert ExitAll(z.listeners.onExit, [c]) == FireIf(z.listeners.onExit, Exited(c)) + ExitAll(z.listeners.onExit, []);
  }
}

=== FILE: unity_math.dfy ===
/**
 * The scalar helpers of the engine's `Mathf` class that the modelled code calls,
 * written out over the reals.
 */
module Numerics {

  /**
   * `Mathf.Clamp`: `lo` below the range, `hi` above it, the value itself
   * inside. The bounds are not checked; with `lo > hi` a value at or above
   * `lo` yields `hi`, as in the engine.
   */
  function Clamp(value: real, lo: real, hi: real): (r: real)
    ensures lo <= hi ==> lo <= r <= hi
    ensures lo <= value <= hi ==> r == value
    ensures value < lo ==> r == lo
    ensures lo <= value && value > hi ==> r == hi
  {
    if value < lo then lo else if value > hi then hi else value
  }

  /** `Mathf.Clamp` on integers, with the same shape as the real version. */
  function ClampInt(value: int, lo: int, hi: int): (r: int)
    ensures lo <= hi ==> lo <= r <= hi
    ensures lo <= value <= hi ==> r == value
    ensures value < lo ==> r == lo
    ensures lo <= value && value > hi ==> r == hi
  {
    if value < lo then lo else if value > hi then hi else value
  }

  /** `Mathf.Clamp01`. */
  function Clamp01(value: real): (r: real)
    ensures 0.0 <= r <= 1.0
    ensures 0.0 <= value <= 1.0 ==> r == value
    ensures value < 0.0 ==> r == 0.0
    ensures value > 1.0 ==> r == 1.0
  {
    Clamp(value, 0.0, 1.0)
  }

  /** `Mathf.Lerp`: the parameter is clamped to [0,1] before interpolating. */
  function Lerp(a: real, b: real, t: real): (r: real)
    ensures a <= b ==> a <= r <= b
    ensures b <= a ==> b <= r <= a
    ensures t <= 0.0 ==> r == a
    ensures t >= 1.0 ==> r == b
  {
    var k := Clamp01(t);
    var step := (b - a) * k;
    ScaledStepBounds(b - a, k, step);
    a + step
  }

  /** A difference scaled by a factor in [0,1] stays between zero and the difference. */
  lemma ScaledStepBounds(d: real, k: real, step: real)
    requires 0.0 <= k <= 1.0
    requires step == d * k
    ensures d >= 0.0 ==> 0.0 <= step <= d
    ensures d <= 0.0 ==> d <= step <= 0.0
    ensures k == 0.0 ==> step == 0.0
    ensures k == 1.0 ==> step == d
  {
    assert d - step == d * (1.0 - k);
    if d >= 0.0 {
      MulNonNegative(d, k);
      MulNonNegative(d, 1.0 - k);
    } else {
      MulNonNegative(-d, k);
      MulNonNegative(-d, 1.0 - k);
      assert -d * k == -(d * k);
      assert -d * (1.0 - k) == -(d * (1.0 - k));
    }
  }

  lemma MulNonNegative(x: real, y: real)
    requires x >= 0.0 && y >= 0.0
    ensures x * y >= 0.0
  {
  }

  function Max(a: real, b: real): (r: real)
    ensures r >= a && r >= b
    ensures r == a || r == b
  {
    if a > b then a else b
  }

  function Min(a: real, b: real): (r: real)
    ensures r <= a && r <= b
    ensures r == a || r == b
  {
    if a < b then a else b
  }

  function Abs(a: real): (r: real)
    ensures r >= 0.0
    ensures r == a || r == -a
  {
    if a < 0.0 then -a else a
  }
}

/** The engine's `Vector2`, `Vector3` and `Quaternion` value types over the reals. */
module Vectors {

  datatype Vec2 = Vec2(x: real, y: real)

  datatype Vec3 = Vec3(x: real, y: real, z: real)

  /** Rotations are only stored and copied by the modelled code, never composed. */
  datatype Quaternion = Quaternion(x: real, y: real, z: real, w: real)

  const Zero: Vec3 := Vec3(0.0, 0.0, 0.0)

  function Add(a: Vec3, b: Vec3): Vec3 {
    Vec3(a.x + b.x, a.y + b.y, a.z + b.z)
  }

  function Sub(a: Vec3, b: Vec3): Vec3 {
    Vec3(a.x - b.x, a.y - b.y, a.z - b.z)
  }

  function Scale(a: Vec3, k: real): Vec3 {
    Vec3(a.x * k, a.y * k, a.z * k)
  }

  function Dot(a: Vec3, b: Vec3): real {
    a.x * b.x + a.y * b.y + a.z * b.z
  }

  /** `Vector3.sqrMagnitude`. */
  function SqrMag(a: Vec3): real {
    Dot(a, a)
  }

  lemma DotAdd(a: Vec3, b: Vec3, c: Vec3)
    ensures Dot(Add(a, b), c) == Dot(a, c) + Dot(b, c)
  {
  }

  lemma DotSub(a: Vec3, b: Vec3, c: Vec3)
    ensures Dot(Sub(a, b), c) == Dot(a, c) - Dot(b, c)
  {
  }

  lemma DotScale(a: Vec3, k: real, c: Vec3)
    ensures Dot(Scale(a, k), c) == k * Dot(a, c)
  {
  }

  lemma SqrMagNonNegative(a: Vec3)
    ensures SqrMag(a) >= 0.0
  {
  }

  lemma SqrMagScale(a: Vec3, k: real)
    ensures SqrMag(Scale(a, k)) == k * k * SqrMag(a)
  {
  }
}

/**
 * The engine's vector library calls whose implementation is not part of this
 * model (`Vector3.ClampMagnitude`, `Vector3.SmoothDamp`,
 * `Vector3.ProjectOnPlane`) are supplied as function values, together with the
 * contracts the proofs rely on. The engine's approximate vector equality is
 * written out.
 */
module VectorPrimitives {
  import opened Numerics
  import opened Vectors

  /** The arguments of one `Vector3.SmoothDamp(current, target, ref currentVelocity, smoothTime, maxSpeed, deltaTime)` call. */
  datatype SmoothDampCall = SmoothDampCall(
    current: Vec3,
    target: Vec3,
    currentVelocity: Vec3,
    smoothTime: real,
    maxSpeed: real,
    deltaTime: real)

  /** The returned position and the new value of the `ref` velocity argument. */
  datatype SmoothDampResult = SmoothDampResult(position: Vec3, currentVelocity: Vec3)

  datatype Primitives = Primitives(
    clampMagnitude: (Vec3, real) -> Vec3,
    smoothDamp: SmoothDampCall -> SmoothDampResult,
    projectOnPlane: (Vec3, Vec3) -> Vec3)

  /** `ClampMagnitude(v, max)` has squared length `min(|v|², max²)`. */
  ghost predicate ValidClampMagnitude(clampMagnitude: (Vec3, real) -> Vec3) {
    forall v: Vec3, max: real :: SqrMag(clampMagnitude(v, max)) == Min(SqrMag(v), max * max)
  }

  /** For a unit normal, `ProjectOnPlane(v, n)` removes exactly the component of `v` along `n`. */
  ghost predicate ValidProjectOnPlane(projectOnPlane: (Vec3, Vec3) -> Vec3) {
    forall v: Vec3, n: Vec3 :: SqrMag(n) == 1.0 ==> projectOnPlane(v, n) == Sub(v, Scale(n, Dot(v, n)))
  }

  /** `Vector3.kEpsilon`, the tolerance of the engine's vector `==`. */
  const VectorEpsilon: real := 0.00001

  /** The engine's `Vector3 ==`: the squared distance is below `kEpsilon²`. */
  predicate ApproximatelyEqual(a: Vec3, b: Vec3) {
    SqrMag(Sub(a, b)) < VectorEpsilon * VectorEpsilon
  }

  /** Every vector is approximately equal to itself. */
  lemma ApproximatelyEqualReflexive(a: Vec3)
    ensures ApproximatelyEqual(a, a)
  {
    assert Sub(a, a) == Zero;
  }

  /** The plane projection of the standard formula meets the contract, so the contract can be met. */
  lemma StandardProjectOnPlaneIsValid()
    ensures ValidProjectOnPlane((v: Vec3, n: Vec3) => Sub(v, Scale(n, Dot(v, n))))
  {
  }
}
